=== FILE: README.md ===
# convertible — a Dafny model of the argument-conversion core

`convertible` is a Python decorator library. A callable is decorated with
*converters*, one per positional parameter and some by keyword. At call time
the arguments pass through those converters before the callable sees them.
This project models the library's conversion core and proves what it does:

- **Converters** (`convertible.dfy`, `ignore.dfy`, `optional.dfy`,
  `greedy.dfy`). `Ignore` passes its argument through. `Optional` turns a
  conversion failure into `None`. `Greedy` keeps asking for the next
  argument until its wrapped converter fails or the arguments run out, then
  hands back the list it collected. The Python library signals "give me the
  next argument" and "here is my result" with exceptions; here they are the
  `NeedMore` and `Reject` outcomes of one `Apply` function. User-written
  converters are `Leaf` functions supplied from outside.
- **The binding plan** (`argument_handler.dfy`, `keyword_handler.dfy`,
  `iterable.dfy`, `function_handler.dfy`). The positional converters are
  zipped with the declared positional names. The leftover converters become
  the source for extra positional arguments, if the callable has `*args`.
  The keyword converters split into those for keyword-only parameters and,
  when the callable has `**kwargs`, every other converter name, declared
  parameter names included.
- **The call-time sequencer** (`function_iterator.dfy`). For one call it
  yields records in four phases: one per declared slot (None when neither
  the positional nor the keyword arguments give it a value), one per extra
  positional value, one per keyword-only converter and one per remaining
  keyword. The
  iterator is a class whose `Next` is proved equal to the pure `Step`.
  Draining a fresh iterator is proved to give exactly the records
  `Bound(...)` describes.
- **The executor** (`new_convert_handler.dfy`). It converts each record. It
  answers a request for more input by popping the front of the iterator's
  own deque, or by handing over the `NoMoreArguments` sentinel. It answers a
  rejection by pushing the surplus back on the front. The class proves its
  loop and its recursion equal to the pure `RunCall` and `Drive`. `Drive` is
  proved to terminate and to consume the deque from the front only. When no
  converter holds a Greedy, a call is proved to convert the records of
  `Bound(...)` one by one and store each value in record order. Values a
  conversion pops off the deque are proved never to become records.
- **The older handler** (`legacy_convert_handler.dfy`). This is an index
  cursor over the arguments with `undo`, plus a keyword mapper. It includes
  Python's negative indexing, which a failed `undo` exposes.
- **Exception dispatch** (`exception_handler.dfy`). The handler is looked up
  by the exception's exact class.

Python dictionaries are insertion-ordered association lists (`Values.Dict`).
The iteration order of the Python set of keyword-only names depends on
hashing, so it is an input (`setOrder`). `getfullargspec` is replaced by a
`Signature` input.

One behaviour of the plan is worth knowing. Without `**kwargs`, a keyword
converter for a parameter that is not keyword-only appears in neither
keyword dict (`KeywordPlanPartition`, the `varkw.None?` case), so it is
never applied. With `**kwargs`, it is applied in phase 4 to a value passed
under that name, unless a positional slot took the name first
(`DeclaredNameConvertedByKeyword`).

## Model

| member | source | states |
|---|---|---|
| Convertible.NoNeedMoreOnSentinel | convertible/Convertible/Greedy.py:73-74 | no converter asks for more input when handed the sentinel, which is what ends the executor's request-more recursion |
| Convertible.RejectHasNoSurplus | convertible/Convertible/Greedy.py:56-57 | every rejection a converter of the core raises carries no values to push back |
| IgnoreConvertible.IgnoreIsIdentity | convertible/Convertible/Ignore.py:14-23 | Ignore returns its argument and never signals; applying it to its own result changes nothing |
| OptionalConvertible.OptionalOutcome | convertible/Convertible/Optional.py:40-45 | a success of the wrapped converter is returned as is; ConvertException and StopIteration become None; request-more and reject pass through unwrapped |
| OptionalConvertible.OptionalNeverFails | convertible/Convertible/Optional.py:40-45 | Optional never lets a ConvertException or StopIteration out |
| GreedyConvertible.GreedyOutcome | convertible/Convertible/Greedy.py:73-81 | the sentinel or a failure of the wrapped converter rejects with the results so far; a success asks for more with a new Greedy holding results + [value]; Greedy never returns normally |
| GreedyConvertible.Greedy.constructor | convertible/Convertible/Greedy.py:20-32 | an absent or empty `_results` starts as the empty list |
| GreedyConvertible.Greedy.ReturnResults | convertible/Convertible/Greedy.py:46-57 | `_results` is reset to a new empty list and the old list is returned in the rejection |
| GreedyConvertible.Greedy.Convert | convertible/Convertible/Greedy.py:59-81 | the object's signal equals the value model's for its state before the call; its own results are reset to the empty list exactly when it rejects on its own account (sentinel, or a failure of the wrapped converter) |
| GreedyConvertible.ConvertTwice | convertible/Convertible/Greedy.py:32-81 | an object that starts with no results keeps none, so every call on it gives the value model's `Greedy(convertible, [])` signal |
| GreedyConvertible.StaleResultsReturnedOnce | convertible/Convertible/Greedy.py:56-57 | an object built with results returns them on its first rejection and the empty list on the next |
| Iterable.PassYieldsInOrder | convertible/Convert/ConvertHandler/Iterable.py:24-32 | the k-th `next` of every fresh pass yields the k-th stored converter, then StopIteration; passes restart from the first |
| Iterable.EmptySourceYieldsNothing | convertible/Convert/ConvertHandler/Iterable.py:13-22 | a source built from None yields nothing |
| FunctionArgumentHandler.ArgumentConvertibles | convertible/Convert/ConvertHandler/FunctionHandler/FunctionArgumentHandler.py:8-28 | the plan has min(#names, #positional converters) pairs and its i-th pair is (names[i], converters[i]) |
| FunctionArgumentHandler.TrailingNamesUnpaired | convertible/Convert/ConvertHandler/FunctionHandler/FunctionArgumentHandler.py:28 | with distinct names, a name declared past the last positional converter appears in no pair |
| FunctionArgumentHandler.SurplusConvertersUnreachable | convertible/Convert/ConvertHandler/FunctionHandler/FunctionArgumentHandler.py:51-52 | without `*args` the extra source is empty, so converters beyond the declared names are never used |
| FunctionArgumentHandler.FromFunction | convertible/Convert/ConvertHandler/FunctionHandler/FunctionArgumentHandler.py:72-77 | the stored extra source is the one computed from the stored plan: empty without `*args`, otherwise the positional converters from index len(plan) on; the by-name branch never applies |
| FunctionArgumentHandler.AsWrittenRejectsEveryVarargs | convertible/Convert/ConvertHandler/FunctionHandler/FunctionArgumentHandler.py:57 | as written, every signature with `*args` fails with AttributeError; the corrected reading gives the leftover converters |
| FunctionKeywordArgumentHandler.KeywordOnlyConvertibles | convertible/Convert/ConvertHandler/FunctionHandler/FunctionKeywordArgumentHandler.py:13-16 | keys are exactly converter names ∩ keyword-only names, each once, each with the converter given under it |
| FunctionKeywordArgumentHandler.KeywordArgumentsConvertible | convertible/Convert/ConvertHandler/FunctionHandler/FunctionKeywordArgumentHandler.py:18-23 | empty without `**kwargs`; with it, exactly the converter names that are not keyword-only, with their converters |
| FunctionKeywordArgumentHandler.KeywordHandler.constructor | convertible/Convert/ConvertHandler/FunctionHandler/FunctionKeywordArgumentHandler.py:9-11 | the object stores those two dicts |
| FunctionKeywordArgumentHandler.KeywordPlanPartition | convertible/Convert/ConvertHandler/FunctionHandler/FunctionKeywordArgumentHandler.py:13-23 | the two dicts never share a name; with `**kwargs` they cover every converter name; without it only the keyword-only ones survive |
| FunctionIterator.Step | convertible/Convert/ConvertHandler/FunctionHandler/FunctionIterator.py:44-111 | every record moves to a later phase or leaves less work in its phase; exhaustion puts it in the Done phase; positional phases give keyword-less records and keyword phases give keyword records |
| FunctionIterator.FunctionIterator.constructor | convertible/Convert/ConvertHandler/FunctionHandler/FunctionIterator.py:15-39 | a fresh iterator holds the two plan objects and the call's arguments, in the initial state |
| FunctionIterator.FunctionIterator.Next | convertible/Convert/ConvertHandler/FunctionHandler/FunctionIterator.py:44-111 | one `next()` on the object, popping the deque, kwargs and the shared dict in place, equals `Step` on its state |
| FunctionIterator.SlotsStep | convertible/Convert/ConvertHandler/FunctionHandler/FunctionIterator.py:61-66 | the next slot takes the front positional value, or pops its own name from kwargs, and never a name an earlier slot took |
| FunctionIterator.SlotsPhase | convertible/Convert/ConvertHandler/FunctionHandler/FunctionIterator.py:52-66 | phase 1 yields one record per declared slot in order, then starts a pass over the extra source |
| FunctionIterator.ExtrasStep | convertible/Convert/ConvertHandler/FunctionHandler/FunctionIterator.py:79-85 | one extra value is popped with the pass's next converter, or with none once the pass is exhausted |
| FunctionIterator.ExtrasPhase | convertible/Convert/ConvertHandler/FunctionHandler/FunctionIterator.py:68-85 | phase 2 yields every leftover positional value in order, paired with the extra converters in order, and empties the deque |
| FunctionIterator.KeywordOnlyStep | convertible/Convert/ConvertHandler/FunctionHandler/FunctionIterator.py:97-98 | one keyword-only converter with its name popped from kwargs (None when absent) |
| FunctionIterator.KeywordOnlyPhase | convertible/Convert/ConvertHandler/FunctionHandler/FunctionIterator.py:87-98 | phase 3 yields one record per keyword-only converter and removes those names from kwargs |
| FunctionIterator.KeywordsStep | convertible/Convert/ConvertHandler/FunctionHandler/FunctionIterator.py:110-111 | one remaining keyword value with the converter popped from the shared dict |
| FunctionIterator.KeywordsPhase | convertible/Convert/ConvertHandler/FunctionHandler/FunctionIterator.py:100-111 | phase 4 yields every remaining keyword value in order and removes each of their names from the shared dict |
| FunctionIterator.DrainPhases | convertible/Convert/ConvertHandler/FunctionHandler/FunctionIterator.py:44-111 | draining a fresh iterator gives exactly slot, extra, keyword-only and keyword records in that order, and the stated final state |
| FunctionIterator.BoundShape | convertible/Convert/ConvertHandler/FunctionHandler/FunctionIterator.py:44-85 | record count; positional records first and in call order, then keyword records; each positional record's converter is its slot's or the extra source's |
| FunctionIterator.BoundKeywordsDistinct | convertible/Convert/ConvertHandler/FunctionHandler/FunctionIterator.py:87-111 | no two keyword records share a keyword |
| FunctionIterator.DeclaredNameConvertedByKeyword | convertible/Convert/ConvertHandler/FunctionHandler/FunctionKeywordArgumentHandler.py:18-23 | with `**kwargs`, a keyword converter for a declared parameter without a positional converter reaches the shared dict, and a value passed under that name is yielded with it |
| FunctionIterator.CallRecords | convertible/Convert/ConvertHandler/FunctionHandler/FunctionIterator.py:44-111 | a drained call gives `#slots + extra positional + #keyword-only + #remaining kwargs` records; positional values in order; distinct keywords after all positional ones; the shared dict loses every remaining keyword name |
| FunctionHandler.FunctionHandler.constructor | convertible/Convert/ConvertHandler/FunctionHandler/FunctionHandler.py:13-29 | stores the two plan objects |
| FunctionHandler.FunctionHandler.Call | convertible/Convert/ConvertHandler/FunctionHandler/FunctionHandler.py:34-44 | a new iterator sharing this handler's plan objects (not copies), in its initial state |
| FunctionHandler.FromFunction | convertible/Convert/ConvertHandler/FunctionHandler/FunctionHandler.py:74-80 | the positional plan from names, `*args` and both converter collections; the keyword plan from the keyword-only set, `**kwargs` and only the keyword converters |
| FunctionHandler.FromFunctionAsWritten | convertible/Convert/ConvertHandler/FunctionHandler/FunctionHandler.py:77-80 | as written, building a handler always fails with AttributeError: on `args` (line 78) exactly when the callable has `*args`, otherwise on `from_function` (line 79) |
| NewConvertHandler.Drive | convertible/Convert/ConvertHandler/NewConvertHandler.py:44-57 | `_convert` never lets the deque grow |
| NewConvertHandler.DriveConsumes | convertible/Convert/ConvertHandler/NewConvertHandler.py:47-52 | nesting depth is at most len(deque) + 1, and what is left is the deque minus its first `depth` values |
| NewConvertHandler.GreedyRun | convertible/Convert/ConvertHandler/NewConvertHandler.py:44-57 | a Greedy collects what its wrapped converter makes of the longest accepted run of values; it consumes the value it stops at and leaves the rest of the deque (the code's reading, with no surplus in the rejection; see Left out for the docstrings' reading) |
| NewConvertHandler.ConvertRecord | convertible/Convert/ConvertHandler/NewConvertHandler.py:34-42 | a record without a converter passes its raw value through untouched |
| NewConvertHandler.Store | convertible/Convert/ConvertHandler/NewConvertHandler.py:28-31 | a keyword result goes into the dict under that keyword and leaves other keys alone; other results are appended |
| NewConvertHandler.PairStoredAsWritten | convertible/Convert/ConvertHandler/NewConvertHandler.py:27-31 | as written, the stored item is the (keyword, value) pair, which differs from the value |
| NewConvertHandler.DriveAsWritten | convertible/Convert/ConvertHandler/NewConvertHandler.py:44-57 | as written, a rejection escapes as AttributeError (line 54); a return, a ConvertException and a StopIteration behave as in `Drive` |
| NewConvertHandler.NeedMoreIsGreedy | convertible/Convertible/Greedy.py:81 | only a Greedy asks for more input, and its continuation is again a Greedy |
| NewConvertHandler.GreedyFailsAsWritten | convertible/Convert/ConvertHandler/NewConvertHandler.py:53-56 | as written, every conversion by a Greedy fails, whatever its input and deque |
| NewConvertHandler.RunCall | convertible/Convert/ConvertHandler/NewConvertHandler.py:23-32 | a successful call runs the iterator to exhaustion; what it stores is stated by the lemmas below |
| NewConvertHandler.RunCallSkipsPopped | convertible/Convert/ConvertHandler/NewConvertHandler.py:24-52 | after a record whose conversion pops values, the rest of the call runs on the deque without exactly those values, so none of them becomes a record |
| NewConvertHandler.SelfContainedDrive | convertible/Convert/ConvertHandler/NewConvertHandler.py:44-57 | a converter without a Greedy never asks for more or rejects; its conversion leaves the deque alone and does not depend on it |
| NewConvertHandler.RunCallStoresAll | convertible/Convert/ConvertHandler/NewConvertHandler.py:24-31 | from any iterator state whose remaining records have no Greedy, the rest of the call is `StoreAll` over exactly the records the iterator goes on to yield: each converted on its own and stored in record order, stopping at the first escape |
| NewConvertHandler.StoreAllStores | convertible/Convert/ConvertHandler/NewConvertHandler.py:26-31 | when every record converts, the positional list gains the positional records' values in order, each keyword record's value is stored under its keyword, and other keys keep their values |
| NewConvertHandler.BoundSelfContained | convertible/Convert/ConvertHandler/FunctionHandler/FunctionIterator.py:52-111 | every record of a call carries no converter or one of the plan's or of the arbitrary-keyword dict |
| NewConvertHandler.CallStoresBound | convertible/Convert/ConvertHandler/NewConvertHandler.py:23-32 | with no Greedy in the plan or its keyword dict, a call is `StoreAll` over the records `Bound` describes |
| NewConvertHandler.CallPassesBound | convertible/Convert/ConvertHandler/NewConvertHandler.py:23-32 | with no Greedy and every record converting, the callable receives the positional records' converted values in order, and each keyword record's converted value under its keyword |
| NewConvertHandler.GreedySlotCall | convertible/Convert/ConvertHandler/NewConvertHandler.py:23-57 | a callable with one Greedy parameter receives the list its wrapped converter makes of the longest accepted run of positional values; the value it stops at is dropped and every later value is passed on unconverted, in order; called with no positional value, the Greedy starts from the None that `kwargs.pop(name, None)` gives the slot |
| NewConvertHandler.GreedySlotConvertsNone | convertible/Convert/ConvertHandler/FunctionHandler/FunctionIterator.py:63-65 | a Greedy parameter called with no argument receives `[inner(None)]` when its wrapped converter accepts None, not an empty list |
| NewConvertHandler.PassThrough | convertible/Convert/ConvertHandler/NewConvertHandler.py:31-38 | records without converters append their raw values to the positional list, in order |
| NewConvertHandler.ConvertHandler.constructor | convertible/Convert/ConvertHandler/NewConvertHandler.py:17-18 | holds the handler `FunctionHandler.from_function` builds |
| NewConvertHandler.ConvertHandler.Call | convertible/Convert/ConvertHandler/NewConvertHandler.py:23-32 | the loop over a fresh iterator returns `RunCall` from its initial state (described by `CallStoresBound`, `CallPassesBound` and `GreedySlotCall`) and leaves the shared dict as that run leaves it |
| NewConvertHandler.ConvertHandler.Convert | convertible/Convert/ConvertHandler/NewConvertHandler.py:34-42 | equals `ConvertRecord` on the iterator's deque; nothing else in the iterator changes |
| NewConvertHandler.ConvertHandler.ConvertWith | convertible/Convert/ConvertHandler/NewConvertHandler.py:44-57 | recursive `_convert` popping and pushing on the iterator's deque equals `Drive` |
| NewConvertHandler.ConvertHandler.PushBack | convertible/Convert/ConvertHandler/NewConvertHandler.py:54-55 | `appendleft` of each surplus value puts them on the front in reverse order |
| NewConvertHandler.GreedySlotScenario | tests/test_greedy.py:51-56 | the test's expectation, stated for this executor: a single Greedy parameter called with 1 and 2 receives the list of both converted values; the executor converts one record, whose Greedy consumes the second value, although the iterator alone would yield two |
| LegacyConvertHandler.PyIndex | convertible/Convert/ConvertHandler/ConvertHandler.py:36 | Python tuple indexing: negative indices count from the end, IndexError exactly outside -len..len-1 |
| LegacyConvertHandler.FetchAt | convertible/Convert/ConvertHandler/ConvertHandler.py:33-38 | the argument at the index; StopIteration at or past the end; IndexError only below -len(args) |
| LegacyConvertHandler.ItemAt | convertible/Convert/ConvertHandler/ConvertHandler.py:45-50 | position i gives `converts[i]` applied to `args[i]` while i < len(converts), the raw argument after, and StopIteration from len(args) on |
| LegacyConvertHandler.ArgIterator.constructor | convertible/Convert/ConvertHandler/ConvertHandler.py:23-25 | the cursor starts at index -1 |
| LegacyConvertHandler.ArgIterator.GetNext | convertible/Convert/ConvertHandler/ConvertHandler.py:33-38 | the index moves forward first and stays moved even on StopIteration |
| LegacyConvertHandler.ArgIterator.Undo | convertible/Convert/ConvertHandler/ConvertHandler.py:40-43 | the index moves back first; IndexError exactly when it goes below zero, and it stays there |
| LegacyConvertHandler.ArgIterator.Next | convertible/Convert/ConvertHandler/ConvertHandler.py:45-50 | advances by one and yields `ItemAt` of the new index |
| LegacyConvertHandler.UndoThenNext | convertible/Convert/ConvertHandler/ConvertHandler.py:33-43 | next, undo, next converts the same position twice; the undo raises IndexError exactly when the cursor stood below zero before (a fresh cursor, say) |
| LegacyConvertHandler.UndoOnFreshCursor | convertible/Convert/ConvertHandler/ConvertHandler.py:40-50 | undo on a fresh cursor raises IndexError, and the next item is the last converter applied to the last argument |
| LegacyConvertHandler.IterateArgs | convertible/Convert/ConvertHandler/ConvertHandler.py:15-52 | a fresh cursor over the call's arguments with the stored converters |
| LegacyConvertHandler.IterateKwargs | convertible/Convert/ConvertHandler/ConvertHandler.py:64-79 | every keyword in call order, converted exactly when a converter is registered under its key |
| LegacyConvertHandler.UnconvertedKwargsUnchanged | convertible/Convert/ConvertHandler/ConvertHandler.py:72-77 | with no converters other than Ignore, every keyword value comes out as it went in |
| LegacyConvertHandler.ConvertHandler.constructor | convertible/Convert/ConvertHandler/ConvertHandler.py:85-87 | stores the positional and keyword converters |
| LegacyConvertHandler.ConvertHandler.Call | convertible/Convert/ConvertHandler/ConvertHandler.py:92-105 | returns a fresh cursor and the keyword items, both from the stored converters |
| ExceptionHandler.ExceptionHandler.Call | convertible/Convert/ExceptionHandler/ExceptionHandler.py:13-17 | the handler of the exact class is invoked with the exception's converter and argument if one is registered; otherwise the same exception is re-raised |
| ExceptionHandler.SubclassIsNotDispatched | convertible/Convert/ExceptionHandler/ExceptionHandler.py:14 | lookup is by exact class: a subclass instance is not passed to its base class's handler |

## Left out

- `getfullargspec` (FunctionHandler.py:74) is a foreign call. The signature it reports is the `Signature` input.
- User-written converters are foreign code. They are `Leaf` functions returning converted / unconvertible / exhausted.
- The handler callbacks of `ExceptionHandler` are foreign. `Call` says which one is invoked and with what, and does not run it.
- The optional handler-class parameters of `FunctionHandler.from_function` (lines 51-52, 75-76) are not modelled. Only the default handler classes are.
- The decorator and descriptor plumbing (`convert.py`, `Convert.py`, `ignore_self.py`, `convert_handler.py`) is not part of this model. Nor is the calling of the decorated function.
- `__repr__` methods and exception message texts are not modelled.
- Greedy.py:6 imports `NoMoreArguments` from a module that does not define it, so that module fails to import. The model uses the sentinel defined at NewConvertHandler.py:12.
- The executor converts with the value model of Greedy. The Python `Greedy` object, whose `_results` is reset on each rejection, is modelled separately (`GreedyConvertible.Greedy`). A plan stores its Greedy object once and converts with it on every call. The model assumes that object starts with empty `_results`, the default (Greedy.py:32); `GreedyConvertible.ConvertTwice` shows such an object behaves as the value model on every call.
- A plan Greedy built with non-empty `_results` is not modelled in the executor. The Python object returns those results on its first rejection only and the empty list afterwards (`GreedyConvertible.StaleResultsReturnedOnce`), while the executor's `Greedy(inner, results)` would return them on every call.
- NewConvertHandler.GreedyRun: follows the code's reading of a Greedy's stop. Greedy.py:57 rejects with no surplus, so the value the wrapped converter fails on is consumed and dropped. The docstrings at Greedy.py:54 and RejectArgumentException.py:13 describe that value as returned to the iterator. Under that reading, `def f(xs, y)` with a Greedy of `int` on `xs`, called with `"1", "a"`, would give `y` the value `"a"`; under the model's reading `y` gets None. The docstrings' reading is not modelled.
- NewConvertHandler.RunCall: the record-by-record statement of what a call stores (`CallStoresBound`, `CallPassesBound`) covers plans without a Greedy. With a Greedy, only the step lemma `RunCallSkipsPopped` (popped values never become records) and the one-parameter case `GreedySlotCall` are proved; a general closed form for Greedy plans with several parameters is not stated.
- The lazy keyword generator of the legacy handler is modelled by the sequence it yields. An exception from a converter midway would stop it; in `IterateKwargs` that exception is the item's outcome instead.
- Concurrency: none in the source; the shared keyword dict is modelled as shared state across calls.

## Findings

| source | as written | input that shows it | evidently intended | confidence | as-written member | corrected member |
|---|---|---|---|---|---|---|
| convertible/Convert/ConvertHandler/FunctionHandler/FunctionArgumentHandler.py:57 | reads `convertibles.args`, which `ConvertibleCallable` does not define | any callable with `*args`, e.g. `def f(*rest)` | the positional converters from index len(plan) on | not executed | FunctionArgumentHandler.AsWrittenRejectsEveryVarargs | FunctionArgumentHandler.FromFunction |
| convertible/Convert/ConvertHandler/FunctionHandler/FunctionHandler.py:79 | calls `from_function` on the keyword handler class, which has no such method | any callable | construct the keyword handler with those three arguments | not executed | FunctionHandler.FromFunctionAsWritten | FunctionHandler.FromFunction |
| convertible/Convert/ConvertHandler/NewConvertHandler.py:54 | reads `exception.rejected_arguments`, which `RejectArgumentException` never sets | any Greedy conversion, e.g. a Greedy slot called with `1, 2` | push back the rejection's surplus (none for Greedy as written at Greedy.py:57; the docstrings at Greedy.py:54 and RejectArgumentException.py:13 read it as the stop value, see Left out) and return its result | not executed | NewConvertHandler.GreedyFailsAsWritten | NewConvertHandler.GreedyRun |
| convertible/Convert/ConvertHandler/NewConvertHandler.py:27 | stores the `(keyword, value)` pair that `convert` returns | any positional argument `v`: the callable receives `(None, v)` | store the converted value | not executed | NewConvertHandler.PairStoredAsWritten | NewConvertHandler.Store |

=== FILE: argument_handler.dfy ===
/**
 * FunctionArgumentHandler.py: the positional half of the binding plan.
 * Declared positional names are zipped with the positional converters, and
 * the converters left over (if the function has a `*args` parameter) become
 * the source of converters for extra positional arguments.
 */
module FunctionArgumentHandler {
  import opened Wrappers
  import opened Convertible
  import opened Iterable
  import opened Arguments

  function Min(a: nat, b: nat): nat {
    if a <= b then a else b
  }

  /**
   * FunctionArgumentHandler.py:8-28: `zip(args, convertibles)`: one pair per
   * position both sequences have, in order, and nothing for the rest.
   */
  function ArgumentConvertibles(names: seq<string>, convertibles: seq<Converter>): (r: seq<ConvertibleArgument>)
    ensures |r| == Min(|names|, |convertibles|)
    ensures forall i :: 0 <= i < |r| ==> r[i] == (names[i], convertibles[i])
  {
    if names == [] || convertibles == [] then []
    else [(names[0], convertibles[0])] + ArgumentConvertibles(names[1..], convertibles[1..])
  }

  /** What `_get_arguments_convertible` can return: an iterable, or one converter picked by name. */
  datatype ExtraSource = Iterated(source: ConvertIterable) | ByName(convertible: Converter)

  /**
   * FunctionArgumentHandler.py:31-57.  Line 57 reads `convertibles.args`, a
   * field ConvertibleCallable does not have; it is read here as the positional
   * converters `convertibles[0]`, which the surrounding lines index.
   */
  function ArgumentsConvertible(argumentConvertibles: seq<ConvertibleArgument>, varargs: Option<string>,
                                convertibles: ConvertibleCallable): ExtraSource
  {
    if varargs.None? then Iterated(Make(None))
    else if |argumentConvertibles| > |convertibles.convertibleArguments| then
      if varargs.value in convertibles.convertibleKeywordArguments
      then ByName(convertibles.convertibleKeywordArguments[varargs.value])
      else Iterated(Make(None))
    else Iterated(Make(Some(convertibles.convertibleArguments[|argumentConvertibles|..])))
  }

  /** Line 57 as written: the attribute lookup `convertibles.args` raises AttributeError. */
  function ArgumentsConvertibleAsWritten(argumentConvertibles: seq<ConvertibleArgument>, varargs: Option<string>,
                                         convertibles: ConvertibleCallable): Result<ExtraSource, MissingAttribute>
  {
    if varargs.None? then Success(Iterated(Make(None)))
    else if |argumentConvertibles| > |convertibles.convertibleArguments| then
      if varargs.value in convertibles.convertibleKeywordArguments
      then Success(ByName(convertibles.convertibleKeywordArguments[varargs.value]))
      else Success(Iterated(Make(None)))
    else Failure(MissingAttribute("args"))
  }

  /**
   * As written, every function with a `*args` parameter fails to build its
   * plan, while the corrected reading hands the leftover converters to `*args`.
   */
  lemma AsWrittenRejectsEveryVarargs(names: seq<string>, rest: string, convertibles: ConvertibleCallable)
    ensures ArgumentsConvertibleAsWritten(ArgumentConvertibles(names, convertibles.convertibleArguments),
                                          Some(rest), convertibles).Failure?
    ensures ArgumentsConvertible(ArgumentConvertibles(names, convertibles.convertibleArguments),
                                 Some(rest), convertibles)
            == Iterated(ConvertIterable(convertibles.convertibleArguments[Min(|names|, |convertibles.convertibleArguments|)..]))
  {
  }

  /** FunctionArgumentHandler.py:60-67: the stored positional plan. */
  datatype ArgumentPlan = ArgumentPlan(
    argumentConvertibles: seq<ConvertibleArgument>,
    argumentsConvertible: ConvertIterable)

  /**
   * FunctionArgumentHandler.py:72-77: the zipped plan, and the extra source
   * computed from that same plan: nothing without `*args`, otherwise the
   * positional converters from index |plan| on, in order.  The by-name
   * branch of `_get_arguments_convertible` never runs, because the plan is
   * never longer than the positional converters.
   */
  function FromFunction(args: seq<string>, varargs: Option<string>, convertibles: ConvertibleCallable): (h: ArgumentPlan)
    ensures h.argumentConvertibles == ArgumentConvertibles(args, convertibles.convertibleArguments)
    ensures Iterated(h.argumentsConvertible)
            == ArgumentsConvertible(h.argumentConvertibles, varargs, convertibles)
    ensures h.argumentsConvertible.convertibles
            == if varargs.None? then [] else convertibles.convertibleArguments[|h.argumentConvertibles|..]
  {
    var argumentConvertibles := ArgumentConvertibles(args, convertibles.convertibleArguments);
    match ArgumentsConvertible(argumentConvertibles, varargs, convertibles)
    case Iterated(source) => ArgumentPlan(argumentConvertibles, source)
    case ByName(_) => assert false; ArgumentPlan(argumentConvertibles, Make(None))
  }

  /**
   * FunctionArgumentHandler.py:28: with distinct parameter names, a name
   * declared after the last positional converter gets no pair at all.
   */
  lemma TrailingNamesUnpaired(names: seq<string>, convertibles: seq<Converter>)
    requires forall i, j :: 0 <= i < j < |names| ==> names[i] != names[j]
    ensures forall i, k :: |convertibles| <= i < |names| && 0 <= k < |ArgumentConvertibles(names, convertibles)| ==>
              ArgumentConvertibles(names, convertibles)[k].0 != names[i]
  {
  }

  /**
   * FunctionArgumentHandler.py:51-52: without `*args` the extra source is
   * empty, so no converter past the declared names is reachable.
   */
  lemma SurplusConvertersUnreachable(args: seq<string>, convertibles: ConvertibleCallable)
    requires |convertibles.convertibleArguments| > |args|
    ensures FromFunction(args, None, convertibles).argumentsConvertible.convertibles == []
    ensures |FromFunction(args, None, convertibles).argumentConvertibles| == |args|
  {
  }
}

=== FILE: arguments.dfy ===
/**
 * The record types of the binding plan and of one call: ConvertArgument.py,
 * ConvertibleArgument.py, ConvertibleCallable.py, FunctionHandler/__init__.py,
 * and the signature that `inspect.getfullargspec` would report.
 */
module Arguments {
  import opened Wrappers
  import opened Values
  import opened Convertible

  /** ConvertArgument.py: an output keyword (None for positional), a converter if any, the raw value. */
  datatype ConvertArgument = ConvertArgument(keyword: Option<string>, convertible: Option<Converter>, argument: Value)

  /** ConvertibleArgument.py: a declared parameter name and its converter. */
  type ConvertibleArgument = (string, Converter)

  /**
   * ConvertibleCallable.py / the `Convertibles` pair of FunctionHandler/__init__.py:
   * the converters given positionally to the decorator, and those given by keyword.
   */
  datatype ConvertibleCallable = ConvertibleCallable(
    convertibleArguments: seq<Converter>,
    convertibleKeywordArguments: map<string, Converter>)

  /**
   * The part of `getfullargspec(function)` the core reads: positional
   * parameter names, the `*args` name, the `**kwargs` name, keyword-only names.
   */
  datatype Signature = Signature(
    args: seq<string>,
    varargs: Option<string>,
    varkw: Option<string>,
    kwonlyargs: seq<string>)

  /** An AttributeError raised by looking up `attribute` on an object that has no such attribute. */
  datatype MissingAttribute = MissingAttribute(attribute: string)
}

=== FILE: convertible.dfy ===
/**
 * The converter capability (Convertible.py) and the control protocol that
 * the Python code expresses with exceptions (NextArgumentException.py,
 * RejectArgumentException.py, ConvertException.py).  Every converter of the
 * core is one variant of `Converter`, and `Apply` is its `convert` method:
 * the exception it raises, or the value it returns, is an `Outcome`.
 */
module Convertible {
  import opened Values

  /** The class of a conversion failure: ConvertException or a subclass of it. */
  datatype ErrorKind = ConvertExceptionKind | Subclass(name: string, base: ErrorKind)

  /**
   * What a user-written leaf converter does with one value: return a
   * result, raise a ConvertException subclass, or let a StopIteration escape.
   */
  datatype LeafResult = Converted(value: Value) | Unconvertible(kind: ErrorKind) | Exhausted

  datatype Converter =
    | Leaf(run: Value -> LeafResult)              // a user converter (foreign code)
    | Ignore                                      // Ignore.py
    | Optional(inner: Converter)                  // Optional.py
    | Greedy(inner: Converter, results: seq<Value>) // Greedy.py, with its `_results`

  /** ConvertException(convert, argument), tagged with its exact class. */
  datatype ConvertException = ConvertException(kind: ErrorKind, convert: Converter, argument: Value)

  /** The result of one `convert` call. */
  datatype Outcome =
    | Ok(value: Value)                            // returned normally
    | Fail(error: ConvertException)               // raised ConvertException
    | NeedMore(next: Converter)                   // raised NextArgumentException(next)
    | Reject(result: Value, surplus: seq<Value>)  // raised RejectArgumentException
    | Stop                                        // raised StopIteration

  /** `convertible.convert(argument)`. */
  function Apply(c: Converter, argument: Value): Outcome {
    match c
    case Leaf(run) =>
      (match run(argument)
       case Converted(v) => Ok(v)
       case Unconvertible(kind) => Fail(ConvertException(kind, c, argument))
       case Exhausted => Stop)
    case Ignore => Ok(argument)
    case Optional(inner) =>
      // Optional.py:40-45: ConvertException and StopIteration become None.
      (match Apply(inner, argument)
       case Fail(_) => Ok(NoneValue)
       case Stop => Ok(NoneValue)
       case o => o)
    case Greedy(inner, results) =>
      // Greedy.py:73-81.  The sentinel and a failure of the inner converter
      // both end the run with the results so far and no surplus values.
      if argument.NoMoreArguments? then Reject(List(results), [])
      else
        match Apply(inner, argument)
        case Ok(res) => NeedMore(Greedy(inner, results + [res]))
        case Fail(_) => Reject(List(results), [])
        case o => o
  }

  /**
   * No converter asks for more input when it is handed the sentinel: this is
   * what makes the executor's request-more recursion terminate.
   */
  lemma {:induction false} NoNeedMoreOnSentinel(c: Converter)
    ensures !Apply(c, NoMoreArguments).NeedMore?
  {
    match c
    case Optional(inner) => NoNeedMoreOnSentinel(inner);
    case _ =>
  }

  /** Every rejection raised by a converter of the core restores no values. */
  lemma {:induction false} RejectHasNoSurplus(c: Converter, argument: Value)
    ensures Apply(c, argument).Reject? ==> Apply(c, argument).surplus == []
  {
    match c
    case Optional(inner) => RejectHasNoSurplus(inner, argument);
    case Greedy(inner, _) => RejectHasNoSurplus(inner, argument);
    case _ =>
  }
}

=== FILE: exception_handler.dfy ===
/**
 * ExceptionHandler.py: dispatch of a conversion failure to the handler
 * registered for its exact class.  The handlers are foreign callables; the
 * model returns which one is called, and with what, instead of calling it.
 */
module ExceptionHandler {
  import opened Values
  import opened Convertible

  /** What `__call__` does: call a handler (and return None), or re-raise. */
  datatype Reaction<H> = Invoked(handler: H, convert: Converter, argument: Value) | Reraised(error: ConvertException)

  /** `isinstance` on the class hierarchy of conversion failures. */
  predicate IsA(kind: ErrorKind, base: ErrorKind) {
    kind == base || (kind.Subclass? && IsA(kind.base, base))
  }

  /** ExceptionHandler.py:6-8: the handlers mapping, never changed after construction. */
  datatype ExceptionHandler<H> = ExceptionHandler(handlers: map<ErrorKind, H>) {
    /**
     * ExceptionHandler.py:13-17: the handler registered under the
     * exception's exact class is called with the exception's converter and
     * argument; with no such handler the exception itself is raised again.
     */
    function Call(exception: ConvertException): (r: Reaction<H>)
      ensures r.Invoked? <==> exception.kind in handlers
      ensures r.Invoked? ==> r.handler == handlers[exception.kind]
                             && r.convert == exception.convert && r.argument == exception.argument
      ensures r.Reraised? ==> r.error == exception
    {
      if exception.kind in handlers then
        Invoked(handlers[exception.kind], exception.convert, exception.argument)
      else Reraised(exception)
    }
  }

  /**
   * ExceptionHandler.py:14: lookup is by exact class.  An exception of a
   * subclass of ConvertException is an instance of ConvertException, yet a
   * handler registered only for ConvertException does not receive it.
   */
  lemma SubclassIsNotDispatched<H>(h: H, name: string, convert: Converter, argument: Value)
    ensures var e := ConvertException(Subclass(name, ConvertExceptionKind), convert, argument);
            && IsA(e.kind, ConvertExceptionKind)
            && ExceptionHandler(map[ConvertExceptionKind := h]).Call(e) == Reraised(e)
  {
    var e := ConvertException(Subclass(name, ConvertExceptionKind), convert, argument);
    assert IsA(e.kind.base, ConvertExceptionKind);
  }
}

=== FILE: function_handler.dfy ===
/**
 * FunctionHandler.py: the glue between the binding plan and the call-time
 * sequencer.  A handler holds the positional plan and the keyword plan of
 * one decorated callable; every call makes a new iterator over the same two
 * plan objects.
 */
module FunctionHandler {
  import opened Wrappers
  import opened Values
  import opened Convertible
  import opened Arguments
  import Positional = FunctionArgumentHandler
  import opened FunctionKeywordArgumentHandler
  import FI = FunctionIterator

  /** `set(kwonlyargs)`. */
  function KeywordOnlyNames(sig: Signature): set<string> {
    set n | n in sig.kwonlyargs
  }

  class FunctionHandler {
    const argumentHandler: Positional.ArgumentPlan
    const keywordHandler: KeywordHandler

    /** FunctionHandler.py:13-29. */
    constructor (argumentHandler: Positional.ArgumentPlan, keywordHandler: KeywordHandler)
      ensures this.argumentHandler == argumentHandler && this.keywordHandler == keywordHandler
    {
      this.argumentHandler := argumentHandler;
      this.keywordHandler := keywordHandler;
    }

    /** The plan the iterators of this handler read. */
    function Plan(): FI.Plan
      reads this
    {
      FI.Plan(argumentHandler.argumentConvertibles, argumentHandler.argumentsConvertible,
              keywordHandler.keywordOnlyConvertibles)
    }

    /**
     * FunctionHandler.py:34-44: a new iterator holding this handler's two
     * plan objects themselves (not copies) and this call's arguments, in its
     * initial state.  The keyword plan's shared dict is the one previous
     * calls have popped from.
     */
    method Call(args: seq<Value>, kwargs: Dict<Value>) returns (it: FI.FunctionIterator)
      ensures fresh(it)
      ensures it.argumentHandler == argumentHandler && it.keywordHandler == keywordHandler
      ensures it.ReadPlan() == Plan()
      ensures it.State() == FI.Start(args, kwargs, keywordHandler.keywordArgumentsConvertible)
    {
      it := new FI.FunctionIterator(argumentHandler, keywordHandler, args, kwargs);
    }
  }

  /**
   * FunctionHandler.py:46-80 with the signature that `getfullargspec`
   * reports as an input: the positional plan from the positional names, the
   * `*args` name and both converter collections; the keyword plan from the
   * keyword-only names as a set, the `**kwargs` name and only the converters
   * given by keyword.  Line 79 calls `from_function` on the keyword plan
   * class, which has none; it is read as the constructor it evidently means.
   */
  method FromFunction(sig: Signature, convertibles: ConvertibleCallable, setOrder: seq<string>)
    returns (h: FunctionHandler)
    requires Enumerates(setOrder, convertibles.convertibleKeywordArguments.Keys * KeywordOnlyNames(sig))
    ensures fresh(h) && fresh(h.keywordHandler)
    ensures h.argumentHandler == Positional.FromFunction(sig.args, sig.varargs, convertibles)
    ensures h.keywordHandler.keywordOnlyConvertibles
            == KeywordOnlyConvertibles(KeywordOnlyNames(sig), convertibles.convertibleKeywordArguments, setOrder)
    ensures h.keywordHandler.keywordArgumentsConvertible
            == KeywordArgumentsConvertible(sig.varkw, convertibles.convertibleKeywordArguments,
                                           KeySet(h.keywordHandler.keywordOnlyConvertibles))
  {
    var argumentHandler := Positional.FromFunction(sig.args, sig.varargs, convertibles);
    var keywordHandler := new KeywordHandler(KeywordOnlyNames(sig), sig.varkw,
                                             convertibles.convertibleKeywordArguments, setOrder);
    h := new FunctionHandler(argumentHandler, keywordHandler);
  }

  /**
   * FunctionHandler.py:77-80 as written: line 78 runs first and, for a
   * callable with `*args`, fails at FunctionArgumentHandler.py:57; otherwise
   * line 79 fails, because the keyword plan class has no `from_function`.
   * No handler is ever built.
   */
  function FromFunctionAsWritten(sig: Signature, convertibles: ConvertibleCallable): (r: Result<(), MissingAttribute>)
    ensures r.Failure?
    ensures r.error == MissingAttribute("args") <==> sig.varargs.Some?
  {
    var argumentConvertibles := Positional.ArgumentConvertibles(sig.args, convertibles.convertibleArguments);
    match Positional.ArgumentsConvertibleAsWritten(argumentConvertibles, sig.varargs, convertibles)
    case Failure(e) => Failure(e)
    case Success(_) =>
      Failure(MissingAttribute("from_function"))
  }
}

=== FILE: function_iterator.dfy ===
/**
 * FunctionIterator.py: the call-time sequencer.  For one call it produces,
 * lazily, one ConvertArgument record after another in four phases:
 * declared positional slots, extra positional values, keyword-only
 * parameters, and the keyword arguments left over.  It pops positional
 * values from the front of a deque that the executor pops from too, pops
 * keyword values out of the call's kwargs dict, and pops converters out of
 * the plan's shared arbitrary-keyword dict.
 *
 * `Step` is one `next()` of the chained generators, as a function of the
 * iterator's state; the class `FunctionIterator` holds that state in fields
 * and its `Next` method is proved to make exactly that step.
 */
module FunctionIterator {
  import opened Wrappers
  import opened Values
  import opened Convertible
  import opened Iterable
  import opened Arguments
  import opened FunctionArgumentHandler
  import opened FunctionKeywordArgumentHandler

  /** The four generators chained by `__iter__` (FunctionIterator.py:44-50), then exhaustion. */
  datatype Phase = Slots | Extras | KeywordOnly | Keywords | Done

  /** What the iterator reads from the two plan objects (FunctionIterator.py:113-175). */
  datatype Plan = Plan(slots: seq<ConvertibleArgument>, source: ConvertIterable, keywordOnly: Dict<Converter>)

  /** The sequencer's state, with the shared arbitrary-keyword dict of the plan. */
  datatype Frame = Frame(
    phase: Phase,
    slot: nat,                                 // next declared slot (phase 1)
    extra: Pass,                               // the generator over the extra source (phase 2)
    keywordOnlyAt: nat,                        // next keyword-only entry (phase 3)
    keywordAt: nat,                            // next kwargs entry (phase 4)
    args: seq<Value>,                          // the deque of positional values
    kwargs: Dict<Value>,                       // the call's keyword values
    keywordArguments: map<string, Converter>)  // the plan's arbitrary-keyword dict

  function Rank(p: Phase): nat {
    match p
    case Slots => 4
    case Extras => 3
    case KeywordOnly => 2
    case Keywords => 1
    case Done => 0
  }

  /** How many more records the current phase can produce (for phase 2, as long as nobody pushes back). */
  function Left(plan: Plan, f: Frame): nat {
    match f.phase
    case Slots => if f.slot < |plan.slots| then |plan.slots| - f.slot else 0
    case Extras => |f.args|
    case KeywordOnly => if f.keywordOnlyAt < |plan.keywordOnly| then |plan.keywordOnly| - f.keywordOnlyAt else 0
    case Keywords => if f.keywordAt < |f.kwargs| then |f.kwargs| - f.keywordAt else 0
    case Done => 0
  }

  /** `g` comes strictly after `f`: a later phase, or fewer records left in the same phase. */
  predicate Progress(plan: Plan, f: Frame, g: Frame) {
    Rank(g.phase) < Rank(f.phase) || (Rank(g.phase) == Rank(f.phase) && Left(plan, g) < Left(plan, f))
  }

  /** A fresh iterator over one call's arguments (FunctionIterator.py:15-39). */
  function Start(args: seq<Value>, kwargs: Dict<Value>, keywordArguments: map<string, Converter>): Frame {
    Frame(Slots, 0, Pass([]), 0, 0, args, kwargs, keywordArguments)
  }

  /**
   * One `next()` of the chain (FunctionIterator.py:44-111): the record
   * produced, or None once every phase is exhausted, and the new state.
   * Phases only move forward, every record moves the state on, and records
   * carry an output keyword exactly when they come from phase 3 or 4.
   */
  function Step(plan: Plan, f: Frame): (r: (Option<ConvertArgument>, Frame))
    ensures r.0.Some? ==> Progress(plan, f, r.1)
    ensures r.0.None? ==> r.1.phase == Done
    ensures Rank(r.1.phase) <= Rank(f.phase)
    ensures r.0.Some? && Rank(r.1.phase) >= Rank(Extras) ==> r.0.value.keyword.None?
    ensures r.0.Some? && Rank(r.1.phase) < Rank(Extras) ==> r.0.value.keyword.Some?
  {
    match f.phase
    case Slots => FromSlots(plan, f)
    case Extras => FromExtras(plan, f)
    case KeywordOnly => FromKeywordOnly(plan, f)
    case Keywords => FromKeywords(plan, f)
    case Done => (None, f)
  }

  /** Phase 1, FunctionIterator.py:52-66: the declared slots; then phase 2 starts a pass over the extra source. */
  function FromSlots(plan: Plan, f: Frame): (Option<ConvertArgument>, Frame)
    requires f.phase == Slots
  {
    if f.slot < |plan.slots| then FillSlot(plan, f)
    else FromExtras(plan, f.(phase := Extras, extra := Iter(plan.source)))
  }

  /** FunctionIterator.py:61-66: the next slot takes the front positional value, else pops its name from kwargs. */
  function FillSlot(plan: Plan, f: Frame): (Option<ConvertArgument>, Frame)
    requires f.slot < |plan.slots|
  {
    var (name, c) := plan.slots[f.slot];
    if f.args != [] then
      (Some(ConvertArgument(None, Some(c), f.args[0])), f.(slot := f.slot + 1, args := f.args[1..]))
    else
      var (v, rest) := Pop(f.kwargs, name, NoneValue);
      (Some(ConvertArgument(None, Some(c), v)), f.(slot := f.slot + 1, kwargs := rest))
  }

  /** Phase 2, FunctionIterator.py:68-85: the positional values left over. */
  function FromExtras(plan: Plan, f: Frame): (Option<ConvertArgument>, Frame)
    requires f.phase == Extras
  {
    if f.args != [] then TakeExtra(f)
    else FromKeywordOnly(plan, f.(phase := KeywordOnly, keywordOnlyAt := 0))
  }

  /** FunctionIterator.py:79-85: the front value with the pass's next converter, or None. */
  function TakeExtra(f: Frame): (Option<ConvertArgument>, Frame)
    requires f.args != []
  {
    var (c, p) := Iterable.Next(f.extra);
    (Some(ConvertArgument(None, c, f.args[0])), f.(args := f.args[1..], extra := p))
  }

  /** Phase 3, FunctionIterator.py:87-98: the keyword-only converters. */
  function FromKeywordOnly(plan: Plan, f: Frame): (Option<ConvertArgument>, Frame)
    requires f.phase == KeywordOnly
  {
    if f.keywordOnlyAt < |plan.keywordOnly| then PopKeywordOnly(plan, f)
    else FromKeywords(plan, f.(phase := Keywords, keywordAt := 0))
  }

  /** FunctionIterator.py:97-98: the next keyword-only converter with its name popped from kwargs. */
  function PopKeywordOnly(plan: Plan, f: Frame): (Option<ConvertArgument>, Frame)
    requires f.keywordOnlyAt < |plan.keywordOnly|
  {
    var (name, c) := plan.keywordOnly[f.keywordOnlyAt];
    var (v, rest) := Pop(f.kwargs, name, NoneValue);
    (Some(ConvertArgument(Some(name), Some(c), v)), f.(keywordOnlyAt := f.keywordOnlyAt + 1, kwargs := rest))
  }

  /** Phase 4, FunctionIterator.py:100-111: the keyword values left over. */
  function FromKeywords(plan: Plan, f: Frame): (Option<ConvertArgument>, Frame)
    requires f.phase == Keywords
  {
    if f.keywordAt < |f.kwargs| then TakeKeyword(f)
    else (None, f.(phase := Done))
  }

  /** FunctionIterator.py:110-111: the next keyword value, popping the converter of its name from the shared dict. */
  function TakeKeyword(f: Frame): (Option<ConvertArgument>, Frame)
    requires f.keywordAt < |f.kwargs|
  {
    var (name, v) := f.kwargs[f.keywordAt];
    (Some(ConvertArgument(Some(name), MapGet(f.keywordArguments, name), v)),
     f.(keywordAt := f.keywordAt + 1, keywordArguments := f.keywordArguments - {name}))
  }

  /** Every record the iterator yields when nothing else touches its deque, and the final state. */
  function Drain(plan: Plan, f: Frame): (seq<ConvertArgument>, Frame)
    decreases Rank(f.phase), Left(plan, f)
  {
    var (r, g) := Step(plan, f);
    match r
    case None => ([], g)
    case Some(a) =>
      var (rest, last) := Drain(plan, g);
      ([a] + rest, last)
  }

  /** The iterator object (FunctionIterator.py:12-39): the plan objects and one call's state. */
  class FunctionIterator {
    const argumentHandler: ArgumentPlan
    const keywordHandler: KeywordHandler
    var args: seq<Value>
    var kwargs: Dict<Value>
    var phase: Phase
    var slot: nat
    var extra: Pass
    var keywordOnlyAt: nat
    var keywordAt: nat

    /** The plan-access properties (FunctionIterator.py:113-159). */
    function ReadPlan(): Plan {
      Plan(argumentHandler.argumentConvertibles, argumentHandler.argumentsConvertible,
           keywordHandler.keywordOnlyConvertibles)
    }

    function State(): Frame
      reads this, keywordHandler
    {
      Frame(phase, slot, extra, keywordOnlyAt, keywordAt, args, kwargs, keywordHandler.keywordArgumentsConvertible)
    }

    constructor (argumentHandler: ArgumentPlan, keywordHandler: KeywordHandler, args: seq<Value>, kwargs: Dict<Value>)
      ensures this.argumentHandler == argumentHandler && this.keywordHandler == keywordHandler
      ensures State() == Start(args, kwargs, keywordHandler.keywordArgumentsConvertible)
    {
      this.argumentHandler := argumentHandler;
      this.keywordHandler := keywordHandler;
      this.args := args;
      this.kwargs := kwargs;
      phase := Slots;
      slot := 0;
      extra := Pass([]);
      keywordOnlyAt := 0;
      keywordAt := 0;
    }

    /** `next()` on the chain of FunctionIterator.py:44-111. */
    method Next() returns (r: Option<ConvertArgument>)
      modifies this, keywordHandler
      ensures (r, State()) == Step(ReadPlan(), old(State()))
    {
      while true
        invariant Step(ReadPlan(), State()) == Step(ReadPlan(), old(State()))
        decreases Rank(phase)
      {
        match phase
        case Slots =>
          if slot < |argumentHandler.argumentConvertibles| {
            var (name, c) := argumentHandler.argumentConvertibles[slot];
            if args != [] {
              r := Some(ConvertArgument(None, Some(c), args[0]));
              args, slot := args[1..], slot + 1;
            } else {
              var popped := Pop(kwargs, name, NoneValue);
              r := Some(ConvertArgument(None, Some(c), popped.0));
              kwargs, slot := popped.1, slot + 1;
            }
            return;
          }
          phase, extra := Extras, Iter(argumentHandler.argumentsConvertible);
        case Extras =>
          if args != [] {
            var arg := args[0];
            args := args[1..];
            var next := Iterable.Next(extra);
            extra := next.1;
            return Some(ConvertArgument(None, next.0, arg));
          }
          phase, keywordOnlyAt := KeywordOnly, 0;
        case KeywordOnly =>
          if keywordOnlyAt < |keywordHandler.keywordOnlyConvertibles| {
            var (name, c) := keywordHandler.keywordOnlyConvertibles[keywordOnlyAt];
            var popped := Pop(kwargs, name, NoneValue);
            kwargs := popped.1;
            keywordOnlyAt := keywordOnlyAt + 1;
            return Some(ConvertArgument(Some(name), Some(c), popped.0));
          }
          phase, keywordAt := Keywords, 0;
        case Keywords =>
          if keywordAt < |kwargs| {
            var (name, v) := kwargs[keywordAt];
            var c := MapGet(keywordHandler.keywordArgumentsConvertible, name);
            keywordHandler.keywordArgumentsConvertible := keywordHandler.keywordArgumentsConvertible - {name};
            keywordAt := keywordAt + 1;
            return Some(ConvertArgument(Some(name), c, v));
          }
          phase := Done;
          return None;
        case Done =>
          return None;
      }
    }
  }

  /** Records followed by whatever a later drain yields, ending in that drain's final state. */
  function Then(records: seq<ConvertArgument>, d: (seq<ConvertArgument>, Frame)): (seq<ConvertArgument>, Frame) {
    (records + d.0, d.1)
  }

  /** Within a phase, a step is that phase's emitting function. */
  lemma StepWithinPhase(plan: Plan, f: Frame)
    ensures f.phase == Slots && f.slot < |plan.slots| ==> Step(plan, f) == FillSlot(plan, f)
    ensures f.phase == Extras && f.args != [] ==> Step(plan, f) == TakeExtra(f)
    ensures f.phase == KeywordOnly && f.keywordOnlyAt < |plan.keywordOnly| ==> Step(plan, f) == PopKeywordOnly(plan, f)
    ensures f.phase == Keywords && f.keywordAt < |f.kwargs| ==> Step(plan, f) == TakeKeyword(f)
  {
  }

  /** A step that yields `a` and moves to `g` puts `a` in front of everything drained from `g`. */
  lemma DrainCons(plan: Plan, f: Frame, a: ConvertArgument, g: Frame)
    requires Step(plan, f) == (Some(a), g)
    ensures Drain(plan, f) == Then([a], Drain(plan, g))
  {
  }

  /** A run of states, each stepping to the next with a record, drains to those records first. */
  lemma {:induction false} DrainRun(plan: Plan, frames: seq<Frame>, records: seq<ConvertArgument>)
    requires |frames| == |records| + 1
    requires forall j {:trigger Step(plan, frames[j])} :: 0 <= j < |records| ==> Step(plan, frames[j]) == (Some(records[j]), frames[j + 1])
    ensures Drain(plan, frames[0]) == Then(records, Drain(plan, frames[|records|]))
  {
    if records == [] {
      ThenThen([], [], Drain(plan, frames[0]));
    } else {
      DrainCons(plan, frames[0], records[0], frames[1]);
      DrainRun(plan, frames[1..], records[1..]);
      ThenThen([records[0]], records[1..], Drain(plan, frames[|records|]));
      assert [records[0]] + records[1..] == records;
    }
  }

  /** Two states that take the same step drain the same. */
  lemma DrainSame(plan: Plan, f: Frame, h: Frame)
    requires Step(plan, f) == Step(plan, h)
    ensures Drain(plan, f) == Drain(plan, h)
  {
  }

  lemma ThenThen(a: seq<ConvertArgument>, b: seq<ConvertArgument>, rest: (seq<ConvertArgument>, Frame))
    ensures Then(a, Then(b, rest)) == Then(a + b, rest)
    ensures Then([], rest) == rest
  {
    assert a + (b + rest.0) == (a + b) + rest.0;
    assert [] + rest.0 == rest.0;
  }

  /*
   * Reference definitions of what each phase yields, written per record
   * rather than step by step.
   */

  /** Slot `i` takes the i-th positional value if there is one, else the keyword value of its name, else None. */
  function SlotValue(slots: seq<ConvertibleArgument>, args: seq<Value>, kwargs: Dict<Value>, i: nat): Value
    requires i < |slots|
  {
    if i < |args| then args[i] else GetOr(kwargs, slots[i].0, NoneValue)
  }

  function SlotRecords(slots: seq<ConvertibleArgument>, args: seq<Value>, kwargs: Dict<Value>): seq<ConvertArgument> {
    seq(|slots|, i requires 0 <= i < |slots| => ConvertArgument(None, Some(slots[i].1), SlotValue(slots, args, kwargs, i)))
  }

  /** The names of the slots before `upTo` that found no positional value and were looked up by name. */
  function FilledByName(slots: seq<ConvertibleArgument>, args: seq<Value>, upTo: nat): set<string>
    decreases upTo
  {
    if upTo == 0 then {}
    else FilledByName(slots, args, upTo - 1) + (if |args| <= upTo - 1 < |slots| then {slots[upTo - 1].0} else {})
  }

  /** The j-th extra value is paired with the j-th converter of the source, or with none. */
  function ExtraRecords(rest: seq<Value>, source: seq<Converter>): seq<ConvertArgument> {
    seq(|rest|, j requires 0 <= j < |rest| =>
      ConvertArgument(None, if j < |source| then Some(source[j]) else None, rest[j]))
  }

  /** Each keyword-only converter with the keyword value of its name, or None. */
  function KeywordOnlyRecords(keywordOnly: Dict<Converter>, kwargs: Dict<Value>): seq<ConvertArgument> {
    seq(|keywordOnly|, i requires 0 <= i < |keywordOnly| =>
      ConvertArgument(Some(keywordOnly[i].0), Some(keywordOnly[i].1), GetOr(kwargs, keywordOnly[i].0, NoneValue)))
  }

  /** Each remaining keyword value, in the caller's order, with the converter of its name if any. */
  function KeywordRecords(kwargs: Dict<Value>, keywordArguments: map<string, Converter>): seq<ConvertArgument> {
    seq(|kwargs|, i requires 0 <= i < |kwargs| =>
      ConvertArgument(Some(kwargs[i].0), MapGet(keywordArguments, kwargs[i].0), kwargs[i].1))
  }

  /** One step of phase 4 yields the next keyword record and pops its name out of the shared dict. */
  lemma KeywordsStep(plan: Plan, f: Frame, keywordArguments: map<string, Converter>)
    requires f.phase == Keywords && f.keywordAt < |f.kwargs| && DistinctKeys(f.kwargs)
    requires f.keywordArguments == keywordArguments - KeySet(f.kwargs[..f.keywordAt])
    ensures Step(plan, f)
            == (Some(KeywordRecords(f.kwargs, keywordArguments)[f.keywordAt]),
                f.(keywordAt := f.keywordAt + 1, keywordArguments := keywordArguments - KeySet(f.kwargs[..f.keywordAt + 1])))
  {
    var i := f.keywordAt;
    var name := f.kwargs[i].0;
    KeySetExtend(f.kwargs, i);
    DistinctPrefix(f.kwargs, i);
    assert MapGet(f.keywordArguments, name) == MapGet(keywordArguments, name);
    assert f.keywordArguments - {name} == keywordArguments - KeySet(f.kwargs[..i + 1]);
  }

  /**
   * Phase 4 (FunctionIterator.py:100-111): one record per keyword value
   * left, and each name matched is popped out of the shared dict.
   */
  lemma {:induction false} KeywordsPhase(plan: Plan, f: Frame, keywordArguments: map<string, Converter>)
    requires f.phase == Keywords && f.keywordAt <= |f.kwargs| && DistinctKeys(f.kwargs)
    requires f.keywordArguments == keywordArguments - KeySet(f.kwargs[..f.keywordAt])
    ensures Drain(plan, f)
            == (KeywordRecords(f.kwargs, keywordArguments)[f.keywordAt..],
                f.(phase := Done, keywordAt := |f.kwargs|, keywordArguments := keywordArguments - KeySet(f.kwargs)))
    decreases |f.kwargs| - f.keywordAt
  {
    var i := f.keywordAt;
    var records := KeywordRecords(f.kwargs, keywordArguments);
    if i == |f.kwargs| {
      assert f.kwargs[..i] == f.kwargs;
      assert records[i..] == [];
    } else {
      KeywordsStep(plan, f, keywordArguments);
      var g := f.(keywordAt := i + 1, keywordArguments := keywordArguments - KeySet(f.kwargs[..i + 1]));
      DrainCons(plan, f, records[i], g);
      KeywordsPhase(plan, g, keywordArguments);
      assert records[i..] == [records[i]] + records[i + 1..];
    }
  }

  /** One step of phase 3 yields the next keyword-only record and pops its name out of kwargs. */
  lemma KeywordOnlyStep(plan: Plan, f: Frame, kwargs: Dict<Value>)
    requires f.phase == KeywordOnly && f.keywordOnlyAt < |plan.keywordOnly| && DistinctKeys(plan.keywordOnly)
    requires f.kwargs == Without(kwargs, KeySet(plan.keywordOnly[..f.keywordOnlyAt]))
    ensures Step(plan, f)
            == (Some(KeywordOnlyRecords(plan.keywordOnly, kwargs)[f.keywordOnlyAt]),
                f.(keywordOnlyAt := f.keywordOnlyAt + 1, kwargs := Without(kwargs, KeySet(plan.keywordOnly[..f.keywordOnlyAt + 1]))))
  {
    var i := f.keywordOnlyAt;
    var ko := plan.keywordOnly;
    var name := ko[i].0;
    KeySetExtend(ko, i);
    DistinctPrefix(ko, i);
    PopWithout(kwargs, KeySet(ko[..i]), name, NoneValue);
    var v := GetOr(kwargs, name, NoneValue);
    var rest := Without(kwargs, KeySet(ko[..i + 1]));
    assert KeywordOnlyRecords(ko, kwargs)[i] == ConvertArgument(Some(name), Some(ko[i].1), v);
    assert FromKeywordOnly(plan, f) == (Some(ConvertArgument(Some(name), Some(ko[i].1), v)), f.(keywordOnlyAt := i + 1, kwargs := rest));
  }

  /** Phase 3 ends by entering phase 4 over what is left of kwargs. */
  lemma KeywordOnlyEnd(plan: Plan, f: Frame, last: Frame)
    requires f.phase == KeywordOnly && f.keywordOnlyAt == |plan.keywordOnly|
    requires last == f.(phase := Keywords, keywordAt := 0)
    ensures Drain(plan, f) == Drain(plan, last)
  {
    assert Step(plan, f) == Step(plan, last);
    DrainSame(plan, f, last);
  }

  /**
   * Phase 3 (FunctionIterator.py:87-98): one record per keyword-only
   * converter, in the plan's order, each popping its name out of kwargs.
   */
  lemma KeywordOnlyPhase(plan: Plan, f: Frame, kwargs: Dict<Value>)
    requires f.phase == KeywordOnly && f.keywordOnlyAt <= |plan.keywordOnly| && DistinctKeys(plan.keywordOnly)
    requires f.kwargs == Without(kwargs, KeySet(plan.keywordOnly[..f.keywordOnlyAt]))
    ensures Drain(plan, f)
            == Then(KeywordOnlyRecords(plan.keywordOnly, kwargs)[f.keywordOnlyAt..],
                    Drain(plan, f.(phase := Keywords, keywordOnlyAt := |plan.keywordOnly|, keywordAt := 0,
                                   kwargs := Without(kwargs, KeySet(plan.keywordOnly)))))
  {
    var done := f.(keywordOnlyAt := |plan.keywordOnly|, kwargs := Without(kwargs, KeySet(plan.keywordOnly)));
    KeywordOnlyRun(plan, f, kwargs);
    KeywordOnlyEnd(plan, done, done.(phase := Keywords, keywordAt := 0));
  }

  /** The steps of phase 3 from `f` on, up to the last keyword-only converter. */
  lemma KeywordOnlyRun(plan: Plan, f: Frame, kwargs: Dict<Value>)
    requires f.phase == KeywordOnly && f.keywordOnlyAt <= |plan.keywordOnly| && DistinctKeys(plan.keywordOnly)
    requires f.kwargs == Without(kwargs, KeySet(plan.keywordOnly[..f.keywordOnlyAt]))
    ensures Drain(plan, f)
            == Then(KeywordOnlyRecords(plan.keywordOnly, kwargs)[f.keywordOnlyAt..],
                    Drain(plan, f.(keywordOnlyAt := |plan.keywordOnly|, kwargs := Without(kwargs, KeySet(plan.keywordOnly)))))
  {
    var records := KeywordOnlyRecords(plan.keywordOnly, kwargs)[f.keywordOnlyAt..];
    var frames := KeywordOnlyFrames(plan, f, kwargs);
    DrainRun(plan, frames, records);
  }

  /** The frames phase 3 passes through from `f` on, each one step after the last. */
  lemma KeywordOnlyFrames(plan: Plan, f: Frame, kwargs: Dict<Value>) returns (frames: seq<Frame>)
    requires f.phase == KeywordOnly && f.keywordOnlyAt <= |plan.keywordOnly| && DistinctKeys(plan.keywordOnly)
    requires f.kwargs == Without(kwargs, KeySet(plan.keywordOnly[..f.keywordOnlyAt]))
    ensures var records := KeywordOnlyRecords(plan.keywordOnly, kwargs)[f.keywordOnlyAt..];
            && |frames| == |records| + 1
            && frames[0] == f
            && frames[|records|] == f.(keywordOnlyAt := |plan.keywordOnly|, kwargs := Without(kwargs, KeySet(plan.keywordOnly)))
            && forall j {:trigger Step(plan, frames[j])} :: 0 <= j < |records| ==>
                 Step(plan, frames[j]) == (Some(records[j]), frames[j + 1])
  {
    var i, ko := f.keywordOnlyAt, plan.keywordOnly;
    var records := KeywordOnlyRecords(ko, kwargs)[i..];
    frames := seq(|ko| - i + 1, j requires 0 <= j <= |ko| - i =>
                    f.(keywordOnlyAt := i + j, kwargs := Without(kwargs, KeySet(ko[..i + j]))));
    forall j {:trigger Step(plan, frames[j])} | 0 <= j < |records|
      ensures Step(plan, frames[j]) == (Some(records[j]), frames[j + 1])
    {
      KeywordOnlyStep(plan, frames[j], kwargs);
    }
    var n := |records|;
    assert i + n == |ko|;
    assert ko[..i + n] == ko;
    assert frames[n] == f.(keywordOnlyAt := |ko|, kwargs := Without(kwargs, KeySet(ko)));
    assert frames[0] == f;
  }

  /** One step of phase 2 pairs the front positional value with the next converter of the pass. */
  lemma ExtrasStep(plan: Plan, f: Frame)
    requires f.phase == Extras && f.args != []
    ensures Step(plan, f)
            == (Some(ExtraRecords(f.args, f.extra.remaining)[0]),
                f.(args := f.args[1..], extra := Iterable.Next(f.extra).1))
    ensures ExtraRecords(f.args, f.extra.remaining)
            == [ExtraRecords(f.args, f.extra.remaining)[0]] + ExtraRecords(f.args[1..], Iterable.Next(f.extra).1.remaining)
  {
  }

  /**
   * Phase 2 (FunctionIterator.py:68-85): while positional values remain,
   * each is paired with the next converter of a fresh pass over the extra
   * source, or with None once that pass is exhausted.
   */
  lemma {:induction false} ExtrasPhase(plan: Plan, f: Frame)
    requires f.phase == Extras
    ensures Drain(plan, f)
            == Then(ExtraRecords(f.args, f.extra.remaining),
                    Drain(plan, f.(phase := KeywordOnly, keywordOnlyAt := 0, args := [],
                                   extra := Advance(f.extra, |f.args|))))
    decreases |f.args|
  {
    var records := ExtraRecords(f.args, f.extra.remaining);
    var last := f.(phase := KeywordOnly, keywordOnlyAt := 0, args := [], extra := Advance(f.extra, |f.args|));
    if f.args != [] {
      ExtrasStep(plan, f);
      var g := f.(args := f.args[1..], extra := Iterable.Next(f.extra).1);
      DrainCons(plan, f, records[0], g);
      ExtrasPhase(plan, g);
      assert Advance(g.extra, |g.args|) == Advance(f.extra, |f.args|);
      ThenThen([records[0]], ExtraRecords(g.args, g.extra.remaining), Drain(plan, last));
    } else {
      assert Step(plan, f) == Step(plan, last);
      DrainSame(plan, f, last);
      ThenThen([], [], Drain(plan, last));
    }
  }

  /** With distinct slot names, a slot's name is not among those looked up before it. */
  lemma {:induction false} NotFilledYet(slots: seq<ConvertibleArgument>, args: seq<Value>, upTo: nat, i: nat)
    requires DistinctKeys(slots) && upTo <= i < |slots|
    ensures slots[i].0 !in FilledByName(slots, args, upTo)
  {
    if upTo > 0 {
      NotFilledYet(slots, args, upTo - 1, i);
    }
  }

  /** One step of phase 1 while positional values remain: the slot takes the front one. */
  lemma SlotsStepPositional(plan: Plan, f: Frame, args: seq<Value>, kwargs: Dict<Value>)
    requires f.slot < |plan.slots| && f.slot < |args|
    requires f.args == args[f.slot..]
    ensures FillSlot(plan, f)
            == (Some(SlotRecords(plan.slots, args, kwargs)[f.slot]), f.(slot := f.slot + 1, args := args[f.slot + 1..]))
  {
    var i := f.slot;
    assert f.args[0] == args[i] && f.args[1..] == args[i + 1..];
    assert SlotRecords(plan.slots, args, kwargs)[i] == ConvertArgument(None, Some(plan.slots[i].1), args[i]);
  }

  /** One step of phase 1 once the positional values are used up: the slot pops its name out of kwargs. */
  lemma SlotsStepByName(plan: Plan, f: Frame, args: seq<Value>, kwargs: Dict<Value>, filled: set<string>)
    requires |args| <= f.slot < |plan.slots| && f.args == []
    requires plan.slots[f.slot].0 !in filled
    requires f.kwargs == Without(kwargs, filled)
    ensures FillSlot(plan, f)
            == (Some(SlotRecords(plan.slots, args, kwargs)[f.slot]),
                f.(slot := f.slot + 1, kwargs := Without(kwargs, filled + {plan.slots[f.slot].0})))
  {
    var i := f.slot;
    var (name, c) := plan.slots[i];
    PopWithout(kwargs, filled, name, NoneValue);
    var v := GetOr(kwargs, name, NoneValue);
    assert SlotValue(plan.slots, args, kwargs, i) == v;
    assert SlotRecords(plan.slots, args, kwargs)[i] == ConvertArgument(None, Some(c), v);
    assert Pop(f.kwargs, name, NoneValue) == (v, Without(kwargs, filled + {name}));
    assert FillSlot(plan, f) == (Some(ConvertArgument(None, Some(c), v)), f.(slot := i + 1, kwargs := Without(kwargs, filled + {name})));
  }

  /** One step of phase 1 fills the next declared slot. */
  lemma SlotsStep(plan: Plan, f: Frame, args: seq<Value>, kwargs: Dict<Value>)
    requires f.phase == Slots && f.slot < |plan.slots| && DistinctKeys(plan.slots)
    requires f.args == args[Min(f.slot, |args|)..]
    requires f.kwargs == Without(kwargs, FilledByName(plan.slots, args, f.slot))
    ensures Step(plan, f)
            == (Some(SlotRecords(plan.slots, args, kwargs)[f.slot]),
                f.(slot := f.slot + 1, args := args[Min(f.slot + 1, |args|)..],
                   kwargs := Without(kwargs, FilledByName(plan.slots, args, f.slot + 1))))
  {
    var i := f.slot;
    StepWithinPhase(plan, f);
    if i < |args| {
      assert Min(i, |args|) == i && Min(i + 1, |args|) == i + 1;
      assert FilledByName(plan.slots, args, i + 1) == FilledByName(plan.slots, args, i);
      SlotsStepPositional(plan, f, args, kwargs);
    } else {
      NotFilledYet(plan.slots, args, i, i);
      SlotsStepByName(plan, f, args, kwargs, FilledByName(plan.slots, args, i));
    }
  }

  /** Phase 1 ends by starting a fresh pass over the extra source. */
  lemma SlotsEnd(plan: Plan, f: Frame, last: Frame)
    requires f.phase == Slots && f.slot == |plan.slots|
    requires last == f.(phase := Extras, extra := Iter(plan.source))
    ensures Drain(plan, f) == Drain(plan, last)
  {
    assert Step(plan, f) == Step(plan, last);
    DrainSame(plan, f, last);
  }

  /**
   * Phase 1 (FunctionIterator.py:52-66): each declared slot in order takes
   * the next positional value, or once those run out pops the keyword value
   * of its own name (None if absent).
   */
  lemma SlotsPhase(plan: Plan, f: Frame, args: seq<Value>, kwargs: Dict<Value>)
    requires f.phase == Slots && f.slot <= |plan.slots| && DistinctKeys(plan.slots)
    requires f.args == args[Min(f.slot, |args|)..]
    requires f.kwargs == Without(kwargs, FilledByName(plan.slots, args, f.slot))
    ensures Drain(plan, f)
            == Then(SlotRecords(plan.slots, args, kwargs)[f.slot..],
                    Drain(plan, f.(phase := Extras, slot := |plan.slots|, extra := Iter(plan.source),
                                   args := args[Min(|plan.slots|, |args|)..],
                                   kwargs := Without(kwargs, FilledByName(plan.slots, args, |plan.slots|)))))
  {
    var slots := plan.slots;
    var done := f.(slot := |slots|, args := args[Min(|slots|, |args|)..],
                   kwargs := Without(kwargs, FilledByName(slots, args, |slots|)));
    SlotsRun(plan, f, args, kwargs);
    SlotsEnd(plan, done, done.(phase := Extras, extra := Iter(plan.source)));
  }

  /** The steps of phase 1 from `f` on, up to the last declared slot. */
  lemma SlotsRun(plan: Plan, f: Frame, args: seq<Value>, kwargs: Dict<Value>)
    requires f.phase == Slots && f.slot <= |plan.slots| && DistinctKeys(plan.slots)
    requires f.args == args[Min(f.slot, |args|)..]
    requires f.kwargs == Without(kwargs, FilledByName(plan.slots, args, f.slot))
    ensures Drain(plan, f)
            == Then(SlotRecords(plan.slots, args, kwargs)[f.slot..],
                    Drain(plan, f.(slot := |plan.slots|, args := args[Min(|plan.slots|, |args|)..],
                                   kwargs := Without(kwargs, FilledByName(plan.slots, args, |plan.slots|)))))
  {
    var records := SlotRecords(plan.slots, args, kwargs)[f.slot..];
    var frames := SlotsFrames(plan, f, args, kwargs);
    DrainRun(plan, frames, records);
  }

  /** The frames phase 1 passes through from `f` on, each one step after the last. */
  lemma SlotsFrames(plan: Plan, f: Frame, args: seq<Value>, kwargs: Dict<Value>) returns (frames: seq<Frame>)
    requires f.phase == Slots && f.slot <= |plan.slots| && DistinctKeys(plan.slots)
    requires f.args == args[Min(f.slot, |args|)..]
    requires f.kwargs == Without(kwargs, FilledByName(plan.slots, args, f.slot))
    ensures var records := SlotRecords(plan.slots, args, kwargs)[f.slot..];
            && |frames| == |records| + 1
            && frames[0] == f
            && frames[|records|] == f.(slot := |plan.slots|, args := args[Min(|plan.slots|, |args|)..],
                                       kwargs := Without(kwargs, FilledByName(plan.slots, args, |plan.slots|)))
            && forall j {:trigger Step(plan, frames[j])} :: 0 <= j < |records| ==>
                 Step(plan, frames[j]) == (Some(records[j]), frames[j + 1])
  {
    var i, slots := f.slot, plan.slots;
    var records := SlotRecords(slots, args, kwargs)[i..];
    frames := seq(|slots| - i + 1, j requires 0 <= j <= |slots| - i =>
                    f.(slot := i + j, args := args[Min(i + j, |args|)..],
                       kwargs := Without(kwargs, FilledByName(slots, args, i + j))));
    forall j {:trigger Step(plan, frames[j])} | 0 <= j < |records|
      ensures Step(plan, frames[j]) == (Some(records[j]), frames[j + 1])
    {
      var g := frames[j];
      SlotsStep(plan, g, args, kwargs);
      assert frames[j + 1] == g.(slot := i + j + 1, args := args[Min(i + j + 1, |args|)..],
                                 kwargs := Without(kwargs, FilledByName(slots, args, i + j + 1)));
    }
    assert frames[|records|] == frames[|slots| - i];
    assert frames[0] == f;
  }

  /** The call's kwargs once phase 1 has popped the names of the slots it looked up. */
  function AfterSlots(plan: Plan, args: seq<Value>, kwargs: Dict<Value>): Dict<Value> {
    Without(kwargs, FilledByName(plan.slots, args, |plan.slots|))
  }

  /** The call's kwargs once phase 3 has popped the keyword-only names as well. */
  function AfterKeywordOnly(plan: Plan, args: seq<Value>, kwargs: Dict<Value>): Dict<Value> {
    Without(AfterSlots(plan, args, kwargs), KeySet(plan.keywordOnly))
  }

  /** Everything one call yields, phase by phase. */
  function Bound(plan: Plan, args: seq<Value>, kwargs: Dict<Value>, keywordArguments: map<string, Converter>)
    : seq<ConvertArgument>
  {
    var n := |plan.slots|;
    SlotRecords(plan.slots, args, kwargs)
    + ExtraRecords(args[Min(n, |args|)..], plan.source.convertibles)
    + KeywordOnlyRecords(plan.keywordOnly, AfterSlots(plan, args, kwargs))
    + KeywordRecords(AfterKeywordOnly(plan, args, kwargs), keywordArguments)
  }

  /** The state once the chain is exhausted. */
  function Final(plan: Plan, args: seq<Value>, kwargs: Dict<Value>, keywordArguments: map<string, Converter>): Frame {
    var n := |plan.slots|;
    var rest := AfterKeywordOnly(plan, args, kwargs);
    Frame(Done, n, Advance(Iter(plan.source), |args| - Min(n, |args|)), |plan.keywordOnly|, |rest|,
          [], rest, keywordArguments - KeySet(rest))
  }

  /**
   * FunctionIterator.py:44-111: iterating a fresh iterator to exhaustion,
   * with nothing else touching its deque, yields the records of the four
   * phases one after the other: one per declared slot, one per extra
   * positional value, one per keyword-only converter, one per keyword value
   * left; and it pops the names of the keywords left out of the shared dict.
   */
  lemma DrainPhases(plan: Plan, args: seq<Value>, kwargs: Dict<Value>, keywordArguments: map<string, Converter>)
    requires DistinctKeys(plan.slots) && DistinctKeys(plan.keywordOnly) && DistinctKeys(kwargs)
    ensures Drain(plan, Start(args, kwargs, keywordArguments))
            == (Bound(plan, args, kwargs, keywordArguments), Final(plan, args, kwargs, keywordArguments))
  {
    var n, ko, M := |plan.slots|, plan.keywordOnly, keywordArguments;
    var w1, w2 := AfterSlots(plan, args, kwargs), AfterKeywordOnly(plan, args, kwargs);
    var rest := args[Min(n, |args|)..];
    var f0 := Start(args, kwargs, M);
    assert args[Min(0, |args|)..] == args;
    WithoutNothing(kwargs, {});
    SlotsPhase(plan, f0, args, kwargs);
    var f1 := f0.(phase := Extras, slot := n, extra := Iter(plan.source), args := rest, kwargs := w1);
    ExtrasPhase(plan, f1);
    var f2 := f1.(phase := KeywordOnly, keywordOnlyAt := 0, args := [], extra := Advance(Iter(plan.source), |rest|));
    assert ko[..0] == [];
    WithoutNothing(w1, {});
    KeywordOnlyPhase(plan, f2, w1);
    var f3 := f2.(phase := Keywords, keywordOnlyAt := |ko|, keywordAt := 0, kwargs := w2);
    WithoutDistinct(kwargs, FilledByName(plan.slots, args, n));
    WithoutDistinct(w1, KeySet(ko));
    assert w2[..0] == [];
    assert M - {} == M;
    KeywordsPhase(plan, f3, M);
    var slotRecords := SlotRecords(plan.slots, args, kwargs);
    var extraRecords := ExtraRecords(rest, plan.source.convertibles);
    var keywordOnlyRecords := KeywordOnlyRecords(ko, w1);
    assert slotRecords[0..] == slotRecords;
    assert keywordOnlyRecords[0..] == keywordOnlyRecords;
    var tail := KeywordRecords(w2, M);
    assert tail[0..] == tail;
    assert Drain(plan, f3) == (tail, Final(plan, args, kwargs, M));
    ThenThree(slotRecords, extraRecords, keywordOnlyRecords, Drain(plan, f3));
  }

  lemma ThenThree(a: seq<ConvertArgument>, b: seq<ConvertArgument>, c: seq<ConvertArgument>,
                  rest: (seq<ConvertArgument>, Frame))
    ensures Then(a, Then(b, Then(c, rest))) == (a + b + c + rest.0, rest.1)
  {
    assert a + (b + (c + rest.0)) == a + b + c + rest.0;
  }

  /**
   * The shape of one call's records: |slots| + max(0, |args| - |slots|)
   * records without a keyword, carrying the positional values in order,
   * then one keyword record per keyword-only converter and per keyword
   * value left.
   */
  lemma BoundShape(plan: Plan, args: seq<Value>, kwargs: Dict<Value>, keywordArguments: map<string, Converter>)
    ensures var b, n := Bound(plan, args, kwargs, keywordArguments), |plan.slots|;
            var positional := n + (if |args| > n then |args| - n else 0);
            && |b| == positional + |plan.keywordOnly| + |AfterKeywordOnly(plan, args, kwargs)|
            && (forall i :: 0 <= i < positional ==> b[i].keyword.None?)
            && (forall i :: positional <= i < |b| ==> b[i].keyword.Some?)
            && (forall i :: 0 <= i < |args| ==> b[i].argument == args[i])
            && (forall i :: 0 <= i < n ==> b[i].convertible == Some(plan.slots[i].1))
            && (forall i :: n <= i < positional ==>
                  b[i].convertible == if i - n < |plan.source.convertibles| then Some(plan.source.convertibles[i - n]) else None)
  {
    var n := |plan.slots|;
    var slotRecords := SlotRecords(plan.slots, args, kwargs);
    var rest := args[Min(n, |args|)..];
    var extraRecords := ExtraRecords(rest, plan.source.convertibles);
    var keywordOnlyRecords := KeywordOnlyRecords(plan.keywordOnly, AfterSlots(plan, args, kwargs));
    var keywordRecords := KeywordRecords(AfterKeywordOnly(plan, args, kwargs), keywordArguments);
    var b := Bound(plan, args, kwargs, keywordArguments);
    assert b == slotRecords + extraRecords + keywordOnlyRecords + keywordRecords;
    var positional := n + |rest|;
    forall i | 0 <= i < positional
      ensures b[i].keyword.None?
      ensures i < |args| ==> b[i].argument == args[i]
      ensures i < n ==> b[i].convertible == Some(plan.slots[i].1)
      ensures n <= i ==> b[i].convertible
                         == if i - n < |plan.source.convertibles| then Some(plan.source.convertibles[i - n]) else None
    {
      if i < n {
        assert b[i] == slotRecords[i];
      } else {
        assert b[i] == extraRecords[i - n];
        assert rest[i - n] == args[i];
      }
    }
    forall i | positional <= i < |b|
      ensures b[i].keyword.Some?
    {
      if i < positional + |keywordOnlyRecords| {
        assert b[i] == keywordOnlyRecords[i - positional];
      } else {
        assert b[i] == keywordRecords[i - positional - |keywordOnlyRecords|];
      }
    }
  }

  /**
   * No output keyword occurs twice in one call's records: the keyword-only
   * names are distinct, the keyword values left are distinct, and phase 3
   * popped every keyword-only name out of what phase 4 visits.  So the
   * executor's `_kwargs.update` never overwrites an entry.
   */
  /** Phase 4 never visits a keyword-only name: phase 3 popped them all. */
  lemma KeywordOnlyNotLeft(ko: Dict<Converter>, kwargs: Dict<Value>, i: nat, j: nat)
    requires i < |ko| && j < |Without(kwargs, KeySet(ko))|
    ensures ko[i].0 != Without(kwargs, KeySet(ko))[j].0
  {
    var left := Without(kwargs, KeySet(ko));
    KeySetMembers(ko);
    KeySetMembers(left);
  }

  lemma BoundKeywordsDistinct(plan: Plan, args: seq<Value>, kwargs: Dict<Value>, keywordArguments: map<string, Converter>)
    requires DistinctKeys(plan.keywordOnly) && DistinctKeys(kwargs)
    ensures var b := Bound(plan, args, kwargs, keywordArguments);
            forall i, j :: 0 <= i < j < |b| && b[i].keyword.Some? && b[j].keyword.Some? ==> b[i].keyword != b[j].keyword
  {
    var n := |plan.slots|;
    var w1 := AfterSlots(plan, args, kwargs);
    var front := SlotRecords(plan.slots, args, kwargs) + ExtraRecords(args[Min(n, |args|)..], plan.source.convertibles);
    var keywordOnlyRecords := KeywordOnlyRecords(plan.keywordOnly, w1);
    var keywordRecords := KeywordRecords(Without(w1, KeySet(plan.keywordOnly)), keywordArguments);
    var tail := keywordOnlyRecords + keywordRecords;
    var b := Bound(plan, args, kwargs, keywordArguments);
    assert b == front + tail;
    assert |front| == n + (if |args| > n then |args| - n else 0);
    BoundShape(plan, args, kwargs, keywordArguments);
    WithoutDistinct(kwargs, FilledByName(plan.slots, args, n));
    TailKeywordsDistinct(plan.keywordOnly, w1, keywordArguments);
    forall i, j | 0 <= i < j < |b| && b[i].keyword.Some? && b[j].keyword.Some?
      ensures b[i].keyword != b[j].keyword
    {
      assert |front| <= i;
      assert b[i] == tail[i - |front|] && b[j] == tail[j - |front|];
    }
  }

  /** The records of phases 3 and 4 carry pairwise different keywords. */
  lemma TailKeywordsDistinct(ko: Dict<Converter>, kwargs: Dict<Value>, keywordArguments: map<string, Converter>)
    requires DistinctKeys(ko) && DistinctKeys(kwargs)
    ensures forall i, j :: 0 <= i < j < |KeywordOnlyRecords(ko, kwargs) + KeywordRecords(Without(kwargs, KeySet(ko)), keywordArguments)| ==>
              (KeywordOnlyRecords(ko, kwargs) + KeywordRecords(Without(kwargs, KeySet(ko)), keywordArguments))[i].keyword
              != (KeywordOnlyRecords(ko, kwargs) + KeywordRecords(Without(kwargs, KeySet(ko)), keywordArguments))[j].keyword
  {
    var left := Without(kwargs, KeySet(ko));
    var keywordOnlyRecords := KeywordOnlyRecords(ko, kwargs);
    var keywordRecords := KeywordRecords(left, keywordArguments);
    var t := keywordOnlyRecords + keywordRecords;
    var k := |ko|;
    WithoutDistinct(kwargs, KeySet(ko));
    forall i, j | 0 <= i < j < |t|
      ensures t[i].keyword != t[j].keyword
    {
      if j < k {
        assert t[i] == keywordOnlyRecords[i] && t[j] == keywordOnlyRecords[j];
      } else if i < k {
        assert t[i] == keywordOnlyRecords[i] && t[j] == keywordRecords[j - k];
        KeywordOnlyNotLeft(ko, kwargs, i, j - k);
      } else {
        assert t[i] == keywordRecords[i - k] && t[j] == keywordRecords[j - k];
      }
    }
  }

  /**
   * FunctionIterator.py:44-111, end to end: a fresh iterator drained with
   * nothing else touching its deque yields |slots| + max(0, |args| - |slots|)
   * + |keyword-only converters| + |kwargs left after phases 1 and 3|
   * records; the positional values come out first, in order and without a
   * keyword; every record after the first keyword record has a keyword too,
   * and no keyword repeats; the shared dict loses exactly the names of the
   * keyword values left.
   */
  lemma CallRecords(plan: Plan, args: seq<Value>, kwargs: Dict<Value>, keywordArguments: map<string, Converter>)
    requires DistinctKeys(plan.slots) && DistinctKeys(plan.keywordOnly) && DistinctKeys(kwargs)
    ensures |Drain(plan, Start(args, kwargs, keywordArguments)).0|
            == |plan.slots| + (if |args| > |plan.slots| then |args| - |plan.slots| else 0)
               + |plan.keywordOnly| + |AfterKeywordOnly(plan, args, kwargs)|
    ensures forall i :: 0 <= i < |args| ==>
              && Drain(plan, Start(args, kwargs, keywordArguments)).0[i].keyword.None?
              && Drain(plan, Start(args, kwargs, keywordArguments)).0[i].argument == args[i]
    ensures forall i, j :: 0 <= i < j < |Drain(plan, Start(args, kwargs, keywordArguments)).0|
                           && Drain(plan, Start(args, kwargs, keywordArguments)).0[i].keyword.Some? ==>
              && Drain(plan, Start(args, kwargs, keywordArguments)).0[j].keyword.Some?
              && Drain(plan, Start(args, kwargs, keywordArguments)).0[i].keyword
                 != Drain(plan, Start(args, kwargs, keywordArguments)).0[j].keyword
    ensures Drain(plan, Start(args, kwargs, keywordArguments)).1.keywordArguments
            == keywordArguments - KeySet(AfterKeywordOnly(plan, args, kwargs))
  {
    DrainPhases(plan, args, kwargs, keywordArguments);
    BoundShape(plan, args, kwargs, keywordArguments);
    BoundKeywordsDistinct(plan, args, kwargs, keywordArguments);
  }

  /**
   * FunctionKeywordArgumentHandler.py:18-23 with FunctionIterator.py:100-111:
   * with `**kwargs`, a keyword converter for a declared parameter without a
   * positional converter (`def f(a, **kw)` given `a=c`) lands in the shared
   * dict, and a value passed as `a=v` is yielded with that converter.
   */
  lemma DeclaredNameConvertedByKeyword(name: string, varkw: string, c: Converter, v: Value)
    ensures KeywordArgumentsConvertible(Some(varkw), map[name := c], {}) == map[name := c]
    ensures Bound(Plan([], ConvertIterable([]), []), [], [(name, v)], map[name := c])
            == [ConvertArgument(Some(name), Some(c), v)]
  {
    assert FilledByName([], [], 0) == {};
    assert KeySet<Converter>([]) == {};
    WithoutNothing([(name, v)], {});
  }
}

=== FILE: greedy.dfy ===
/**
 * Greedy.py: keep asking for the next argument while the wrapped converter
 * accepts it, then hand back the list of results.  The step itself is the
 * `Greedy` case of `Convertible.Apply`; the class below is the Python object,
 * whose `_results` field `_return_results` resets to a new empty list.
 */
module GreedyConvertible {
  import opened Wrappers
  import opened Values
  import opened Convertible

  /**
   * Greedy.py:73-81: the sentinel or a ConvertException of the wrapped
   * converter ends the run with the results so far and no surplus; a success
   * asks for one more argument, carrying a new Greedy whose results are the
   * old ones plus the new one; any other signal of the wrapped converter
   * passes through.  No path returns normally.
   */
  lemma GreedyOutcome(inner: Converter, results: seq<Value>, argument: Value)
    ensures argument.NoMoreArguments? ==>
              Apply(Convertible.Greedy(inner, results), argument) == Reject(List(results), [])
    ensures !argument.NoMoreArguments? && Apply(inner, argument).Fail? ==>
              Apply(Convertible.Greedy(inner, results), argument) == Reject(List(results), [])
    ensures !argument.NoMoreArguments? && Apply(inner, argument).Ok? ==>
              Apply(Convertible.Greedy(inner, results), argument)
              == NeedMore(Convertible.Greedy(inner, results + [Apply(inner, argument).value]))
    ensures !Apply(Convertible.Greedy(inner, results), argument).Ok?
  {
  }

  /** A Greedy object: its wrapped converter and its mutable `_results` list. */
  class Greedy {
    const convertible: Converter
    var results: seq<Value>

    /** Greedy.py:20-32: an absent or empty `_results` starts an empty list. */
    constructor (convertible: Converter, results: Option<seq<Value>>)
      ensures this.convertible == convertible
      ensures this.results == (if results.Some? then results.value else [])
    {
      this.convertible := convertible;
      this.results := if results.Some? && results.value != [] then results.value else [];
    }

    /** The converter value this object currently behaves as. */
    function Snapshot(): Converter
      reads this
    {
      Convertible.Greedy(convertible, results)
    }

    /** Greedy.py:46-57: reset `_results` and reject with the old list. */
    method ReturnResults() returns (signal: Outcome)
      modifies this
      ensures results == []
      ensures signal == Reject(List(old(results)), [])
    {
      var collected := results;
      results := [];
      signal := Reject(List(collected), []);
    }

    /**
     * Greedy.py:59-81.  The signal is the one the value model gives for the
     * state before the call; the object's own results are reset to the
     * empty list exactly when it rejects, and a success leaves them alone (the continuation
     * gets a new list).
     */
    method Convert(argument: Value) returns (signal: Outcome)
      modifies this
      ensures signal == Apply(old(Snapshot()), argument)
      ensures !signal.Ok?
      ensures results == (if argument.NoMoreArguments? || Apply(convertible, argument).Fail?
                          then [] else old(results))
    {
      if argument.NoMoreArguments? {
        signal := ReturnResults();
        return;
      }
      var attempt := Apply(convertible, argument);
      match attempt
      case Fail(_) =>
        signal := ReturnResults();
      case Ok(res) =>
        signal := NeedMore(Convertible.Greedy(convertible, results + [res]));
      case _ =>
        signal := attempt;
    }
  }

  /**
   * Greedy.py:32,56,73-81: an object that starts with no results still has
   * none after any call, so every call on it, however many, gives the value
   * model's `Greedy(convertible, [])` signal.  A plan stores its Greedy
   * object once and converts with it on every call.
   */
  method ConvertTwice(g: Greedy, first: Value, second: Value) returns (s1: Outcome, s2: Outcome)
    modifies g
    requires g.results == []
    ensures s1 == Apply(Convertible.Greedy(g.convertible, []), first)
    ensures s2 == Apply(Convertible.Greedy(g.convertible, []), second)
    ensures g.results == []
  {
    s1 := g.Convert(first);
    s2 := g.Convert(second);
  }

  /**
   * Greedy.py:56: an object built with results hands them back on its first
   * rejection only; the next rejection carries the empty list.
   */
  method StaleResultsReturnedOnce(g: Greedy) returns (s1: Outcome, s2: Outcome)
    modifies g
    ensures s1 == Reject(List(old(g.results)), [])
    ensures s2 == Reject(List([]), [])
  {
    s1 := g.Convert(NoMoreArguments);
    s2 := g.Convert(NoMoreArguments);
  }
}

=== FILE: ignore.dfy ===
/** Ignore.py: the converter that leaves its argument as it is. */
module IgnoreConvertible {
  import opened Values
  import opened Convertible

  /**
   * Ignore.py:14-23: `convert` returns its argument, never signals, and holds
   * no state, so applying it to its own result changes nothing.
   */
  lemma IgnoreIsIdentity(argument: Value)
    ensures Apply(Ignore, argument) == Ok(argument)
    ensures Apply(Ignore, Apply(Ignore, argument).value) == Apply(Ignore, argument)
  {
  }
}

=== FILE: iterable.dfy ===
/**
 * Iterable.py: `ConvertIterable`, an ordered, restartable source of
 * converters for the extra positional arguments.  Each `__iter__` call makes
 * a new generator (`Pass`) that walks the stored converters from the first.
 */
module Iterable {
  import opened Wrappers
  import opened Convertible

  datatype ConvertIterable = ConvertIterable(convertibles: seq<Converter>)

  /** Iterable.py:13-22: constructed with None, the source holds an empty list. */
  function Make(convertibles: Option<seq<Converter>>): ConvertIterable {
    ConvertIterable(if convertibles.Some? then convertibles.value else [])
  }

  /** A generator made by `__iter__`: the converters it has yet to yield. */
  datatype Pass = Pass(remaining: seq<Converter>)

  /** Iterable.py:24-32: a fresh generator over the stored converters. */
  function Iter(it: ConvertIterable): Pass {
    Pass(it.convertibles)
  }

  /** `next(generator)`: the next converter, or None for StopIteration. */
  function Next(p: Pass): (Option<Converter>, Pass) {
    if p.remaining == [] then (None, p) else (Some(p.remaining[0]), Pass(p.remaining[1..]))
  }

  /** The generator after `k` calls of `next`. */
  function Advance(p: Pass, k: nat): Pass
    decreases k
  {
    if k == 0 then p else Advance(Next(p).1, k - 1)
  }

  lemma {:induction false} AdvanceDrops(s: seq<Converter>, k: nat)
    ensures Advance(Pass(s), k) == Pass(if k <= |s| then s[k..] else [])
  {
    if k > 0 {
      if s == [] {
        AdvanceDrops(s, k - 1);
      } else {
        AdvanceDrops(s[1..], k - 1);
      }
    }
  }

  /**
   * Iterable.py:24-32: the k-th `next` of any fresh pass yields the k-th
   * stored converter, and StopIteration once they are all used.  The stored
   * converters are only read, so every pass starts again from the first.
   */
  lemma PassYieldsInOrder(it: ConvertIterable, k: nat)
    ensures Next(Advance(Iter(it), k)).0
            == if k < |it.convertibles| then Some(it.convertibles[k]) else None
  {
    AdvanceDrops(it.convertibles, k);
  }

  /** Iterable.py:22: the source built from None yields nothing at all. */
  lemma EmptySourceYieldsNothing(k: nat)
    ensures Next(Advance(Iter(Make(None)), k)).0 == None
  {
    PassYieldsInOrder(Make(None), k);
  }
}

=== FILE: keyword_handler.dfy ===
/**
 * FunctionKeywordArgumentHandler.py: the keyword half of the binding plan.
 * The keyword converters are split into those for keyword-only parameters
 * and those for names destined for `**kwargs`.
 */
module FunctionKeywordArgumentHandler {
  import opened Wrappers
  import opened Values
  import opened Convertible

  /**
   * `order` lists every element of `s` once.  A Python set is iterated in an
   * order its hashing decides; the model takes that order as an input.
   */
  predicate Enumerates(order: seq<string>, s: set<string>) {
    && (forall n :: n in order ==> n in s)
    && (forall n :: n in s ==> n in order)
    && (forall i, j :: 0 <= i < j < |order| ==> order[i] != order[j])
  }

  /** `{name: convertibles[name] for name in order}`. */
  function Entries(order: seq<string>, convertibles: map<string, Converter>): (r: Dict<Converter>)
    requires forall n :: n in order ==> n in convertibles
    ensures |r| == |order|
    ensures forall i :: 0 <= i < |r| ==> r[i] == (order[i], convertibles[order[i]])
  {
    if order == [] then [] else [(order[0], convertibles[order[0]])] + Entries(order[1..], convertibles)
  }

  /**
   * FunctionKeywordArgumentHandler.py:13-16: one entry per converter name
   * that is also a keyword-only name, carrying the converter given under
   * that name, in the set's iteration order.
   */
  function KeywordOnlyConvertibles(kwonlyargs: set<string>, convertibles: map<string, Converter>,
                                   setOrder: seq<string>): (r: Dict<Converter>)
    requires Enumerates(setOrder, convertibles.Keys * kwonlyargs)
    ensures KeySet(r) == convertibles.Keys * kwonlyargs
    ensures DistinctKeys(r)
    ensures forall i :: 0 <= i < |r| ==> r[i].0 in convertibles && r[i].1 == convertibles[r[i].0]
  {
    var r := Entries(setOrder, convertibles);
    KeySetMembers(r);
    assert forall n :: n in convertibles.Keys * kwonlyargs ==> n in KeySet(r) by {
      forall n | n in convertibles.Keys * kwonlyargs
        ensures n in KeySet(r)
      {
        var i :| 0 <= i < |setOrder| && setOrder[i] == n;
        assert r[i].0 == n;
      }
    }
    r
  }

  /**
   * FunctionKeywordArgumentHandler.py:18-23: without `**kwargs` nothing;
   * with it, every converter name that is not keyword-only, with its converter.
   */
  function KeywordArgumentsConvertible(varkw: Option<string>, convertibles: map<string, Converter>,
                                       keywordOnly: set<string>): (r: map<string, Converter>)
    ensures varkw.None? ==> r == map[]
    ensures varkw.Some? ==> r.Keys == convertibles.Keys - keywordOnly
    ensures forall n :: n in r ==> n in convertibles && r[n] == convertibles[n]
  {
    if varkw.None? then map[] else map n | n in convertibles.Keys - keywordOnly :: convertibles[n]
  }

  /**
   * The keyword plan object.  Its keyword-only dict is fixed; its
   * arbitrary-keyword dict is the one the call-time sequencer pops from.
   */
  class KeywordHandler {
    const keywordOnlyConvertibles: Dict<Converter>
    var keywordArgumentsConvertible: map<string, Converter>

    /** FunctionKeywordArgumentHandler.py:9-11. */
    constructor (kwonlyargs: set<string>, varkw: Option<string>, convertibles: map<string, Converter>,
                 setOrder: seq<string>)
      requires Enumerates(setOrder, convertibles.Keys * kwonlyargs)
      ensures keywordOnlyConvertibles == KeywordOnlyConvertibles(kwonlyargs, convertibles, setOrder)
      ensures keywordArgumentsConvertible
              == KeywordArgumentsConvertible(varkw, convertibles, KeySet(keywordOnlyConvertibles))
    {
      var keywordOnly := KeywordOnlyConvertibles(kwonlyargs, convertibles, setOrder);
      keywordOnlyConvertibles := keywordOnly;
      keywordArgumentsConvertible := KeywordArgumentsConvertible(varkw, convertibles, KeySet(keywordOnly));
    }
  }

  /**
   * FunctionKeywordArgumentHandler.py:16,21-23: the two dicts never share a
   * name; with `**kwargs` they cover every converter name between them;
   * without it, only the keyword-only converters survive.
   */
  lemma KeywordPlanPartition(kwonlyargs: set<string>, varkw: Option<string>, convertibles: map<string, Converter>,
                             setOrder: seq<string>)
    requires Enumerates(setOrder, convertibles.Keys * kwonlyargs)
    ensures var only := KeySet(KeywordOnlyConvertibles(kwonlyargs, convertibles, setOrder));
            var rest := KeywordArgumentsConvertible(varkw, convertibles, only).Keys;
            && only !! rest
            && (varkw.Some? ==> only + rest == convertibles.Keys)
            && (varkw.None? ==> only + rest == convertibles.Keys * kwonlyargs)
  {
  }
}

=== FILE: legacy_convert_handler.dfy ===
/**
 * ConvertHandler.py: the older handler that `convert.py` wires in.  The
 * positional side is an index cursor over the call's arguments whose index
 * a converter's caller may move back with `undo`; the keyword side maps
 * every keyword argument through the converter registered under its key.
 */
module LegacyConvertHandler {
  import opened Wrappers
  import opened Values
  import opened Convertible

  /** What `__next__`, `get_next` and `undo` raise themselves. */
  datatype Raised = StopIteration | IndexError

  /**
   * What one `next` gives: the outcome of the position's converter (its
   * value, or the exception it raises, which escapes `__next__` unchanged),
   * or an exception of the cursor itself.
   */
  datatype Item = Item(outcome: Outcome) | Raised(error: Raised)

  /**
   * Python's `s[i]` on a tuple: a negative index counts from the end; an
   * index outside `-|s| .. |s|-1` raises IndexError.
   */
  function PyIndex<T>(s: seq<T>, i: int): (r: Option<T>)
    ensures 0 <= i < |s| ==> r == Some(s[i])
    ensures -|s| <= i < 0 ==> r == Some(s[|s| + i])
    ensures r.None? <==> (i < -|s| || |s| <= i)
  {
    if 0 <= i < |s| then Some(s[i])
    else if -|s| <= i < 0 then Some(s[|s| + i])
    else None
  }

  /**
   * ConvertHandler.py:33-38: `get_next` once the index has been moved to
   * `index`: the argument there while `index < len(args)`, StopIteration
   * otherwise.  The check is only an upper bound, so a negative index left
   * behind by a failed `undo` reads from the end of the arguments.
   */
  function FetchAt(args: seq<Value>, index: int): (r: Result<Value, Raised>)
    ensures index >= |args| ==> r == Failure(StopIteration)
    ensures 0 <= index < |args| ==> r == Success(args[index])
    ensures r.Failure? && r.error == IndexError <==> index < -|args|
  {
    if index < |args| then
      match PyIndex(args, index)
      case Some(arg) => Success(arg)
      case None => Failure(IndexError)
    else Failure(StopIteration)
  }

  /**
   * ConvertHandler.py:45-50: `__next__` once the index has been moved to
   * `index`: the position's converter applied to the fetched argument while
   * `index < len(converts)`, the argument itself after the last converter.
   */
  function ItemAt(args: seq<Value>, converts: seq<Converter>, index: int): (r: Item)
    ensures 0 <= index < |args| && index < |converts| ==> r == Item(Apply(converts[index], args[index]))
    ensures 0 <= index < |args| && |converts| <= index ==> r == Item(Ok(args[index]))
    ensures index >= |args| ==> r == Raised(StopIteration)
  {
    match FetchAt(args, index)
    case Failure(e) => Raised(e)
    case Success(arg) =>
      if index < |converts| then
        match PyIndex(converts, index)
        case Some(c) => Item(Apply(c, arg))
        case None => Raised(IndexError)
      else Item(Ok(arg))
  }

  /** `_InnerArgIterator`: the cursor over one call's positional arguments. */
  class ArgIterator {
    const args: seq<Value>
    const converts: seq<Converter>
    var index: int

    /** ConvertHandler.py:23-25: the cursor starts before the first argument. */
    constructor (converts: seq<Converter>, args: seq<Value>)
      ensures this.args == args && this.converts == converts && index == -1
    {
      this.args := args;
      this.converts := converts;
      index := -1;
    }

    /**
     * ConvertHandler.py:33-38: the index moves forward first and stays
     * moved even when StopIteration is raised.
     */
    method GetNext() returns (r: Result<Value, Raised>)
      modifies this
      ensures index == old(index) + 1
      ensures r == FetchAt(args, index)
    {
      index := index + 1;
      if index < |args| {
        var arg := PyIndex(args, index);
        if arg.Some? {
          r := Success(arg.value);
        } else {
          r := Failure(IndexError);
        }
      } else {
        r := Failure(StopIteration);
      }
    }

    /**
     * ConvertHandler.py:40-43: the index moves back first; below zero
     * IndexError is raised and the index stays negative.
     */
    method Undo() returns (r: Option<Raised>)
      modifies this
      ensures index == old(index) - 1
      ensures r.Some? <==> index < 0
      ensures r.Some? ==> r.value == IndexError
    {
      index := index - 1;
      if index < 0 {
        r := Some(IndexError);
      } else {
        r := None;
      }
    }

    /** ConvertHandler.py:45-50. */
    method Next() returns (r: Item)
      modifies this
      ensures index == old(index) + 1
      ensures r == ItemAt(args, converts, index)
    {
      var fetched := GetNext();
      if fetched.Failure? {
        return Raised(fetched.error);
      }
      if index < |converts| {
        var c := PyIndex(converts, index);
        if c.Some? {
          r := Item(Apply(c.value, fetched.value));
        } else {
          r := Raised(IndexError);
        }
      } else {
        r := Item(Ok(fetched.value));
      }
    }
  }

  /**
   * ConvertHandler.py:33-36,40-41: `next`, `undo`, `next` converts the same
   * position twice.  The `undo` raises IndexError exactly when the cursor
   * stood below zero before the first `next` (a fresh cursor, say); the
   * index has moved back all the same, so the second `next` still repeats
   * the first.
   */
  method UndoThenNext(it: ArgIterator) returns (first: Item, undone: Option<Raised>, second: Item)
    modifies it
    ensures undone == (if old(it.index) < 0 then Some(IndexError) else None)
    ensures first == second
    ensures it.index == old(it.index) + 1
  {
    first := it.Next();
    undone := it.Undo();
    second := it.Next();
  }

  /**
   * ConvertHandler.py:40-43,33-36: an `undo` on a fresh cursor raises
   * IndexError and leaves index -2; the following `next` then reads the last
   * argument and applies the last converter to it.
   */
  method UndoOnFreshCursor(it: ArgIterator) returns (undone: Option<Raised>, item: Item)
    modifies it
    requires it.index == -1 && it.args != [] && it.converts != []
    ensures undone == Some(IndexError)
    ensures item == Item(Apply(it.converts[|it.converts| - 1], it.args[|it.args| - 1]))
  {
    undone := it.Undo();
    item := it.Next();
  }

  /** `_ConvertArgsIterator`: the positional converters given at construction. */
  datatype ArgsConverter = ArgsConverter(converts: seq<Converter>)

  /** `_ConvertKwargsIterator`: the keyword converters given at construction. */
  datatype KwargsConverter = KwargsConverter(converts: map<string, Converter>)

  /** ConvertHandler.py:15,52: a fresh cursor over `args`. */
  method IterateArgs(converter: ArgsConverter, args: seq<Value>) returns (it: ArgIterator)
    ensures fresh(it)
    ensures it.args == args && it.converts == converter.converts && it.index == -1
  {
    it := new ArgIterator(converter.converts, args);
  }

  /**
   * ConvertHandler.py:64-79: what the keyword generator yields, in the
   * call's keyword order: each key with its value converted by the converter
   * registered under that key, or with its value unchanged when there is
   * none.
   */
  function IterateKwargs(converter: KwargsConverter, kwargs: Dict<Value>): (r: seq<(string, Outcome)>)
    ensures |r| == |kwargs|
    ensures forall i :: 0 <= i < |r| ==> r[i].0 == kwargs[i].0
    ensures forall i :: 0 <= i < |r| && kwargs[i].0 in converter.converts ==>
              r[i].1 == Apply(converter.converts[kwargs[i].0], kwargs[i].1)
    ensures forall i :: 0 <= i < |r| && kwargs[i].0 !in converter.converts ==> r[i].1 == Ok(kwargs[i].1)
  {
    if kwargs == [] then []
    else
      var (key, value) := kwargs[0];
      [(key, if key in converter.converts then Apply(converter.converts[key], value) else Ok(value))]
      + IterateKwargs(converter, kwargs[1..])
  }

  /**
   * ConvertHandler.py:72-77: keys without a converter, and keys whose
   * converter is Ignore, come out exactly as they went in.
   */
  lemma {:induction false} UnconvertedKwargsUnchanged(converter: KwargsConverter, kwargs: Dict<Value>)
    requires forall k :: k in converter.converts ==> converter.converts[k] == Ignore
    ensures IterateKwargs(converter, kwargs) == seq(|kwargs|, i requires 0 <= i < |kwargs| => (kwargs[i].0, Ok(kwargs[i].1)))
  {
    if kwargs != [] {
      UnconvertedKwargsUnchanged(converter, kwargs[1..]);
    }
  }

  /** ConvertHandler.py:82-105. */
  class ConvertHandler {
    const argsConverter: ArgsConverter
    const kwargsConverter: KwargsConverter

    /** ConvertHandler.py:85-87. */
    constructor (args: seq<Converter>, kwargs: map<string, Converter>)
      ensures argsConverter == ArgsConverter(args) && kwargsConverter == KwargsConverter(kwargs)
    {
      argsConverter := ArgsConverter(args);
      kwargsConverter := KwargsConverter(kwargs);
    }

    /**
     * ConvertHandler.py:92-105: a fresh positional cursor and the keyword
     * items, both from the converters given at construction.
     */
    method Call(args: seq<Value>, kwargs: Dict<Value>) returns (argsIt: ArgIterator, kwargsItems: seq<(string, Outcome)>)
      ensures fresh(argsIt)
      ensures argsIt.args == args && argsIt.converts == argsConverter.converts && argsIt.index == -1
      ensures kwargsItems == IterateKwargs(kwargsConverter, kwargs)
    {
      argsIt := IterateArgs(argsConverter, args);
      kwargsItems := IterateKwargs(kwargsConverter, kwargs);
    }
  }
}

=== FILE: new_convert_handler.dfy ===
/**
 * NewConvertHandler.py: the executor.  It pulls records from a fresh
 * iterator one at a time, converts each record's value with the record's
 * converter, and answers the two control signals: a request for more input
 * pops the front of the iterator's own deque (or hands over the
 * `NoMoreArguments` sentinel once the deque is empty) and converts again
 * with the continuation; a rejection pushes its surplus values back on the
 * front of the deque and returns its result.  Conversion failures escape.
 *
 * `Drive` is `_convert` as a function of the deque, `RunCall` is `__call__`
 * as a function of the iterator's state; the class `ConvertHandler` does
 * the same work on the iterator object and is proved to agree with them.
 */
module NewConvertHandler {
  import opened Wrappers
  import opened Values
  import opened Convertible
  import opened Arguments
  import Positional = FunctionArgumentHandler
  import opened FunctionKeywordArgumentHandler
  import FI = FunctionIterator
  import FH = FunctionHandler
  import Iterable

  /**
   * What escapes `_convert` uncaught: a ConvertException, a StopIteration
   * of a leaf converter, or (in the code as written) an AttributeError.
   */
  datatype Escape = Raised(error: ConvertException) | StopIteration | AttributeError(name: string)

  /** The positional values and keyword values handed to the decorated callable. */
  type Output = (seq<Value>, Dict<Value>)

  /**
   * NewConvertHandler.py:44-57: `_convert(function_iterator, convertible,
   * argument)` as a function of the deque: the result, or what escapes, and
   * the deque afterwards.  The deque never grows: the only rejections the
   * converters raise restore no values.
   */
  function Drive(c: Converter, argument: Value, deque: seq<Value>): (r: (Result<Value, Escape>, seq<Value>))
    ensures |r.1| <= |deque|
    decreases |deque| + (if argument.NoMoreArguments? then 0 else 1)
  {
    match Apply(c, argument)
    case Ok(v) => (Success(v), deque)
    case Fail(e) => (Failure(Raised(e)), deque)
    case Stop => (Failure(StopIteration), deque)
    case NeedMore(next) =>
      NoNeedMoreOnSentinel(c);
      if deque != [] then Drive(next, deque[0], deque[1..])
      else Drive(next, NoMoreArguments, [])
    case Reject(result, surplus) =>
      RejectHasNoSurplus(c, argument);
      (Success(result), Reversed(surplus) + deque)
  }

  /** How many nested `_convert` calls one conversion makes (one per request for more input). */
  function Depth(c: Converter, argument: Value, deque: seq<Value>): nat
    decreases |deque| + (if argument.NoMoreArguments? then 0 else 1)
  {
    match Apply(c, argument)
    case NeedMore(next) =>
      NoNeedMoreOnSentinel(c);
      if deque != [] then 1 + Depth(next, deque[0], deque[1..])
      else 1 + Depth(next, NoMoreArguments, [])
    case _ => 0
  }

  /**
   * NewConvertHandler.py:47-52: every nested call pops exactly one value off
   * the front of the deque while there is one, and the sentinel stops the
   * requests, so the nesting is at most |deque| + 1 deep and what is left
   * is the deque without its first `Depth` values.
   */
  lemma {:induction false} DriveConsumes(c: Converter, argument: Value, deque: seq<Value>)
    ensures Depth(c, argument, deque) <= |deque| + (if argument.NoMoreArguments? then 0 else 1)
    ensures Drive(c, argument, deque).1
            == deque[Positional.Min(Depth(c, argument, deque), |deque|)..]
    decreases |deque| + (if argument.NoMoreArguments? then 0 else 1)
  {
    match Apply(c, argument)
    case NeedMore(next) =>
      NoNeedMoreOnSentinel(c);
      if deque != [] {
        DriveConsumes(next, deque[0], deque[1..]);
        assert deque[1..][Positional.Min(Depth(next, deque[0], deque[1..]), |deque| - 1)..]
               == deque[Positional.Min(Depth(c, argument, deque), |deque|)..];
      } else {
        DriveConsumes(next, NoMoreArguments, []);
      }
    case Reject(result, surplus) =>
      RejectHasNoSurplus(c, argument);
      assert Reversed(surplus) + deque == deque[0..];
    case _ =>
      assert deque == deque[0..];
  }

  /** NewConvertHandler.py:33-42: a record without a converter passes its raw value through. */
  function ConvertRecord(record: ConvertArgument, deque: seq<Value>): (r: (Result<Value, Escape>, seq<Value>))
    ensures record.convertible.None? ==> r == (Success(record.argument), deque)
    ensures |r.1| <= |deque|
  {
    if record.convertible.None? then (Success(record.argument), deque)
    else Drive(record.convertible.value, record.argument, deque)
  }

  /**
   * NewConvertHandler.py:27-31, as evidently intended: a value with a
   * keyword goes into the dict under that keyword, any other is appended to
   * the list.
   */
  function Store(out: Output, keyword: Option<string>, v: Value): (r: Output)
    ensures keyword.None? ==> r.0 == out.0 + [v] && r.1 == out.1
    ensures keyword.Some? ==> r.0 == out.0 && Get(r.1, keyword.value) == Some(v)
    ensures keyword.Some? ==> forall k :: k != keyword.value ==> Get(r.1, k) == Get(out.1, k)
  {
    match keyword
    case None => (out.0 + [v], out.1)
    case Some(k) => (out.0, Put(out.1, k, v))
  }

  /** `(keyword, result)` as the Python pair that `convert` returns. */
  function Pair(keyword: Option<string>, v: Value): Value {
    Tuple([if keyword.Some? then Str(keyword.value) else NoneValue, v])
  }

  /** NewConvertHandler.py:27-31 as written: the stored `result` is the pair `convert` returned. */
  function StoreAsWritten(out: Output, keyword: Option<string>, v: Value): Output {
    Store(out, keyword, Pair(keyword, v))
  }

  /**
   * As written, the callable never receives a converted value itself: every
   * positional slot of the output holds a (keyword, value) pair where the
   * intended store puts the value.
   */
  lemma PairStoredAsWritten(out: Output, v: Value)
    ensures StoreAsWritten(out, None, v).0 == out.0 + [Tuple([NoneValue, v])]
    ensures Store(out, None, v).0 == out.0 + [v]
    ensures StoreAsWritten(out, None, v) != Store(out, None, v)
  {
    var pair := Tuple([NoneValue, v]);
    assert v in pair.items;
    assert StoreAsWritten(out, None, v).0[|out.0|] == pair;
  }

  /**
   * NewConvertHandler.py:44-57 as written: line 54 reads
   * `exception.rejected_arguments`, which RejectArgumentException.py:11-27
   * never sets, so a rejection escapes as AttributeError instead of
   * returning its result.  Every other path is that of `Drive`.
   */
  function DriveAsWritten(c: Converter, argument: Value, deque: seq<Value>): (r: (Result<Value, Escape>, seq<Value>))
    ensures Apply(c, argument).Reject? ==> r.0 == Failure(AttributeError("rejected_arguments"))
    ensures Apply(c, argument).Ok? || Apply(c, argument).Fail? || Apply(c, argument).Stop? ==>
              r == Drive(c, argument, deque)
    decreases |deque| + (if argument.NoMoreArguments? then 0 else 1)
  {
    match Apply(c, argument)
    case Ok(v) => (Success(v), deque)
    case Fail(e) => (Failure(Raised(e)), deque)
    case Stop => (Failure(StopIteration), deque)
    case NeedMore(next) =>
      NoNeedMoreOnSentinel(c);
      if deque != [] then DriveAsWritten(next, deque[0], deque[1..])
      else DriveAsWritten(next, NoMoreArguments, [])
    case Reject(_, _) => (Failure(AttributeError("rejected_arguments")), deque)
  }

  /** Only a Greedy asks for more input, and the continuation it hands over is again a Greedy. */
  lemma {:induction false} NeedMoreIsGreedy(c: Converter, argument: Value)
    ensures Apply(c, argument).NeedMore? ==> Apply(c, argument).next.Greedy?
  {
    match c
    case Optional(inner) => NeedMoreIsGreedy(inner, argument);
    case Greedy(inner, _) => NeedMoreIsGreedy(inner, argument);
    case _ =>
  }

  /**
   * As written, every conversion by a Greedy fails: a Greedy never returns
   * normally, every continuation it asks to be called with is a Greedy, so
   * the chain ends in a rejection (AttributeError) or an escaping
   * StopIteration.  The corrected `Drive` returns the collected list
   * (`GreedyRun`).
   */
  lemma {:induction false} GreedyFailsAsWritten(inner: Converter, results: seq<Value>, argument: Value, deque: seq<Value>)
    ensures DriveAsWritten(Convertible.Greedy(inner, results), argument, deque).0.Failure?
    decreases |deque| + (if argument.NoMoreArguments? then 0 else 1)
  {
    var c := Convertible.Greedy(inner, results);
    match Apply(c, argument)
    case NeedMore(next) =>
      NoNeedMoreOnSentinel(c);
      NeedMoreIsGreedy(c, argument);
      if deque != [] {
        GreedyFailsAsWritten(next.inner, next.results, deque[0], deque[1..]);
      } else {
        GreedyFailsAsWritten(next.inner, next.results, NoMoreArguments, []);
      }
    case _ =>
  }

  /** What `inner` makes of each of `vs`, all of which it converts. */
  function ConvertedAll(inner: Converter, vs: seq<Value>): seq<Value>
    requires forall j :: 0 <= j < |vs| ==> Apply(inner, vs[j]).Ok?
  {
    if vs == [] then [] else [Apply(inner, vs[0]).value] + ConvertedAll(inner, vs[1..])
  }

  /**
   * The wrapped converter accepts the first `k` values of `s` and not the
   * one after them, which is the sentinel or a value it fails on.
   */
  predicate AcceptsFirst(inner: Converter, s: seq<Value>, k: nat) {
    && k <= |s|
    && (forall j :: 0 <= j < k ==> !s[j].NoMoreArguments? && Apply(inner, s[j]).Ok?)
    && (k < |s| ==> s[k].NoMoreArguments? || Apply(inner, s[k]).Fail?)
  }

  /** One value the wrapped converter accepts: the Greedy asks for the next one. */
  lemma GreedyTakes(inner: Converter, results: seq<Value>, argument: Value, deque: seq<Value>)
    requires !argument.NoMoreArguments? && Apply(inner, argument).Ok?
    ensures Drive(Convertible.Greedy(inner, results), argument, deque)
            == var more := Convertible.Greedy(inner, results + [Apply(inner, argument).value]);
               if deque != [] then Drive(more, deque[0], deque[1..]) else Drive(more, NoMoreArguments, [])
  {
  }

  /** The sentinel, or a value the wrapped converter fails on: the Greedy returns what it has. */
  lemma GreedyStops(inner: Converter, results: seq<Value>, argument: Value, deque: seq<Value>)
    requires argument.NoMoreArguments? || Apply(inner, argument).Fail?
    ensures Drive(Convertible.Greedy(inner, results), argument, deque) == (Success(List(results)), deque)
  {
    assert Reversed<Value>([]) + deque == deque;
  }

  /**
   * Greedy.py:59-81 under `_convert`: a Greedy handed `argument` with
   * `deque` behind it collects what its wrapped converter makes of the
   * first `k` values of `[argument] + deque`, and stops at the first value
   * the wrapped converter fails on (which is consumed and dropped) or at the
   * sentinel once the deque is empty.  Dropping that value follows the code:
   * Greedy.py:57 rejects with no values to restore, although the docstrings
   * at Greedy.py:54 and RejectArgumentException.py:13 speak of the last
   * argument as returned to the iterator.
   */
  lemma {:induction false} GreedyRun(inner: Converter, results: seq<Value>, argument: Value, deque: seq<Value>, k: nat)
    requires AcceptsFirst(inner, [argument] + deque, k)
    ensures Drive(Convertible.Greedy(inner, results), argument, deque)
            == (Success(List(results + ConvertedAll(inner, ([argument] + deque)[..k]))),
                deque[Positional.Min(k, |deque|)..])
    decreases k
  {
    var s := [argument] + deque;
    assert s[0] == argument;
    if k == 0 {
      GreedyStops(inner, results, argument, deque);
      assert s[..0] == [];
      assert results + [] == results;
    } else {
      var res := Apply(inner, argument).value;
      var more := results + [res];
      AcceptedPrefix(inner, s, k);
      GreedyTakes(inner, results, argument, deque);
      var rest := ConvertedAll(inner, s[1..k]);
      assert more + rest == results + ConvertedAll(inner, s[..k]);
      if deque != [] {
        assert [deque[0]] + deque[1..] == s[1..];
        GreedyRun(inner, more, deque[0], deque[1..], k - 1);
        assert ConvertedAll(inner, ([deque[0]] + deque[1..])[..k - 1]) == rest;
        assert deque[1..][Positional.Min(k - 1, |deque| - 1)..] == deque[Positional.Min(k, |deque|)..];
      } else {
        assert s[1..k] == [];
        assert rest == [] && more + rest == more;
        GreedyStops(inner, more, NoMoreArguments, []);
        assert deque[Positional.Min(k, |deque|)..] == [];
      }
    }
  }

  /** Peeling the first accepted value off an accepted prefix. */
  lemma AcceptedPrefix(inner: Converter, s: seq<Value>, k: nat)
    requires AcceptsFirst(inner, s, k) && k > 0
    ensures AcceptsFirst(inner, s[1..], k - 1)
    ensures s[1..][..k - 1] == s[1..k]
    ensures ConvertedAll(inner, s[..k]) == [Apply(inner, s[0]).value] + ConvertedAll(inner, s[1..k])
  {
    assert s[..k][1..] == s[1..k];
    forall j | 0 <= j < k - 1
      ensures !s[1..][j].NoMoreArguments? && Apply(inner, s[1..][j]).Ok?
    {
      assert s[1..][j] == s[j + 1];
    }
  }

  /**
   * NewConvertHandler.py:24-31: `__call__` on the iterator's state: pull
   * the next record, convert it on the iterator's own deque, store the
   * value, and go on until the iterator is exhausted or a conversion
   * escapes.  Also the iterator's final state, which carries the shared
   * arbitrary-keyword dict of the plan.
   */
  function RunCall(plan: FI.Plan, f: FI.Frame, out: Output): (r: (Result<Output, Escape>, FI.Frame))
    ensures r.0.Success? ==> r.1.phase == FI.Done
    decreases FI.Rank(f.phase), FI.Left(plan, f)
  {
    var (record, g) := FI.Step(plan, f);
    match record
    case None => (Success(out), g)
    case Some(rec) =>
      var (res, deque) := ConvertRecord(rec, g.args);
      var h := g.(args := deque);
      match res
      case Failure(e) => (Failure(e), h)
      case Success(v) =>
        assert FI.Left(plan, h) <= FI.Left(plan, g);
        RunCall(plan, h, Store(out, rec.keyword, v))
  }

  /**
   * NewConvertHandler.py:24-31: a record whose conversion pops values off
   * the deque hands the rest of the call an iterator whose deque has lost
   * exactly those values, so none of them is ever yielded as a record.
   */
  lemma RunCallSkipsPopped(plan: FI.Plan, f: FI.Frame, out: Output)
    requires FI.Step(plan, f).0.Some? && FI.Step(plan, f).0.value.convertible.Some?
    requires var (rec, g) := (FI.Step(plan, f).0.value, FI.Step(plan, f).1);
             Drive(rec.convertible.value, rec.argument, g.args).0.Success?
    ensures var (rec, g) := (FI.Step(plan, f).0.value, FI.Step(plan, f).1);
            var c := rec.convertible.value;
            var popped := Positional.Min(Depth(c, rec.argument, g.args), |g.args|);
            RunCall(plan, f, out)
            == RunCall(plan, g.(args := g.args[popped..]),
                       Store(out, rec.keyword, Drive(c, rec.argument, g.args).0.value))
  {
    var (rec, g) := (FI.Step(plan, f).0.value, FI.Step(plan, f).1);
    DriveConsumes(rec.convertible.value, rec.argument, g.args);
  }

  /**
   * A converter with no Greedy inside it: it never asks for more input and
   * never rejects, so converting with it leaves the deque alone.
   */
  predicate SelfContained(c: Converter) {
    match c
    case Greedy(_, _) => false
    case Optional(inner) => SelfContained(inner)
    case _ => true
  }

  /** A record with no converter, or with one that never touches the deque. */
  predicate SelfContainedRecord(record: ConvertArgument) {
    record.convertible.None? || SelfContained(record.convertible.value)
  }

  /** Without a Greedy, `_convert` neither pops nor pushes, and its result does not depend on the deque. */
  lemma {:induction false} SelfContainedDrive(c: Converter, argument: Value, deque: seq<Value>)
    requires SelfContained(c)
    ensures !Apply(c, argument).NeedMore? && !Apply(c, argument).Reject?
    ensures Drive(c, argument, deque) == (Drive(c, argument, []).0, deque)
  {
    match c
    case Optional(inner) =>
      SelfContainedDrive(inner, argument, deque);
    case _ =>
  }

  /**
   * The reference for a call whose conversions never touch the deque: the
   * records converted one by one on their own, each value stored in record
   * order, stopping at the first conversion that escapes.
   */
  function StoreAll(records: seq<ConvertArgument>, out: Output): Result<Output, Escape> {
    if records == [] then Success(out)
    else
      match ConvertRecord(records[0], []).0
      case Failure(e) => Failure(e)
      case Success(v) => StoreAll(records[1..], Store(out, records[0].keyword, v))
  }

  /**
   * From any state of the iterator: when none of the records still to come
   * has a converter that touches the deque, the rest of `__call__` is
   * `StoreAll` over exactly the records the iterator goes on to yield.
   */
  lemma {:induction false} RunCallStoresAll(plan: FI.Plan, f: FI.Frame, out: Output)
    requires forall i :: 0 <= i < |FI.Drain(plan, f).0| ==> SelfContainedRecord(FI.Drain(plan, f).0[i])
    ensures RunCall(plan, f, out).0 == StoreAll(FI.Drain(plan, f).0, out)
    decreases FI.Rank(f.phase), FI.Left(plan, f)
  {
    var (record, g) := FI.Step(plan, f);
    if record.Some? {
      var rec := record.value;
      FI.DrainCons(plan, f, rec, g);
      var rest := FI.Drain(plan, g).0;
      var all := FI.Drain(plan, f).0;
      assert all == [rec] + rest;
      assert all[0] == rec && all[1..] == rest;
      forall i | 0 <= i < |rest|
        ensures SelfContainedRecord(rest[i])
      {
        assert rest[i] == all[i + 1];
      }
      if rec.convertible.Some? {
        SelfContainedDrive(rec.convertible.value, rec.argument, g.args);
      }
      assert ConvertRecord(rec, g.args) == (ConvertRecord(rec, []).0, g.args);
      assert g.(args := g.args) == g;
      match ConvertRecord(rec, []).0
      case Failure(e) =>
      case Success(v) =>
        RunCallStoresAll(plan, g, Store(out, rec.keyword, v));
    }
  }

  /**
   * What `StoreAll` hands the callable when every record converts: the
   * values of the first `p` records (those without a keyword) as the
   * positional list in record order, and each keyword record's value under
   * its keyword; keys no record names keep what they had.
   */
  lemma {:induction false} StoreAllStores(records: seq<ConvertArgument>, out: Output, p: nat)
    requires p <= |records|
    requires forall i :: 0 <= i < |records| ==> (records[i].keyword.None? <==> i < p)
    requires forall i, j :: 0 <= i < j < |records| && records[i].keyword.Some? && records[j].keyword.Some?
                            ==> records[i].keyword != records[j].keyword
    requires forall i :: 0 <= i < |records| ==> ConvertRecord(records[i], []).0.Success?
    ensures StoreAll(records, out).Success?
    ensures StoreAll(records, out).value.0
            == out.0 + seq(p, i requires 0 <= i < p => ConvertRecord(records[i], []).0.value)
    ensures forall i :: p <= i < |records| ==>
              Get(StoreAll(records, out).value.1, records[i].keyword.value) == Some(ConvertRecord(records[i], []).0.value)
    ensures forall k :: (forall i :: p <= i < |records| ==> records[i].keyword != Some(k)) ==>
              Get(StoreAll(records, out).value.1, k) == Get(out.1, k)
    ensures p == |records| ==> StoreAll(records, out).value.1 == out.1
  {
    if records != [] {
      var rec, rest := records[0], records[1..];
      var v := ConvertRecord(rec, []).0.value;
      var next := Store(out, rec.keyword, v);
      var q := if p > 0 then p - 1 else 0;
      forall i | 0 <= i < |rest|
        ensures rest[i] == records[i + 1]
      {
      }
      StoreAllStores(rest, next, q);
      var o := StoreAll(rest, next).value;
      assert StoreAll(records, out) == StoreAll(rest, next);
      if p > 0 {
        assert out.0 + [v] + seq(q, i requires 0 <= i < q => ConvertRecord(rest[i], []).0.value)
               == out.0 + seq(p, i requires 0 <= i < p => ConvertRecord(records[i], []).0.value);
      } else {
        var k0 := rec.keyword.value;
        assert forall i :: 0 <= i < |rest| ==> rest[i].keyword != Some(k0);
        assert Get(o.1, k0) == Some(v);
      }
    }
  }

  /** Every converter a plan and its arbitrary-keyword dict hold is free of Greedy. */
  predicate PlanSelfContained(plan: FI.Plan, keywordArguments: map<string, Converter>) {
    && (forall i :: 0 <= i < |plan.slots| ==> SelfContained(plan.slots[i].1))
    && (forall i :: 0 <= i < |plan.source.convertibles| ==> SelfContained(plan.source.convertibles[i]))
    && (forall i :: 0 <= i < |plan.keywordOnly| ==> SelfContained(plan.keywordOnly[i].1))
    && (forall k :: k in keywordArguments ==> SelfContained(keywordArguments[k]))
  }

  /** The records of one call carry only converters of the plan or of the arbitrary-keyword dict. */
  lemma BoundSelfContained(plan: FI.Plan, args: seq<Value>, kwargs: Dict<Value>, keywordArguments: map<string, Converter>)
    requires PlanSelfContained(plan, keywordArguments)
    ensures var b := FI.Bound(plan, args, kwargs, keywordArguments);
            forall i :: 0 <= i < |b| ==> SelfContainedRecord(b[i])
  {
    var n := |plan.slots|;
    var slotRecords := FI.SlotRecords(plan.slots, args, kwargs);
    var extraRecords := FI.ExtraRecords(args[Positional.Min(n, |args|)..], plan.source.convertibles);
    var keywordOnlyRecords := FI.KeywordOnlyRecords(plan.keywordOnly, FI.AfterSlots(plan, args, kwargs));
    var keywordRecords := FI.KeywordRecords(FI.AfterKeywordOnly(plan, args, kwargs), keywordArguments);
    var b := FI.Bound(plan, args, kwargs, keywordArguments);
    assert b == slotRecords + extraRecords + keywordOnlyRecords + keywordRecords;
    var e := |slotRecords| + |extraRecords|;
    var w := e + |keywordOnlyRecords|;
    forall i | 0 <= i < |b|
      ensures SelfContainedRecord(b[i])
    {
      if i < |slotRecords| {
        assert b[i] == slotRecords[i];
      } else if i < e {
        assert b[i] == extraRecords[i - |slotRecords|];
      } else if i < w {
        assert b[i] == keywordOnlyRecords[i - e];
      } else {
        assert b[i] == keywordRecords[i - w];
      }
    }
  }

  /**
   * NewConvertHandler.py:23-31 over FunctionIterator.py:44-111: when no
   * converter of the plan or of its arbitrary-keyword dict holds a Greedy,
   * a call converts the records of `Bound` one by one, each on its own, and
   * stores each value in record order, stopping at the first conversion
   * that escapes.
   */
  lemma CallStoresBound(plan: FI.Plan, args: seq<Value>, kwargs: Dict<Value>, keywordArguments: map<string, Converter>)
    requires DistinctKeys(plan.slots) && DistinctKeys(plan.keywordOnly) && DistinctKeys(kwargs)
    requires PlanSelfContained(plan, keywordArguments)
    ensures RunCall(plan, FI.Start(args, kwargs, keywordArguments), ([], [])).0
            == StoreAll(FI.Bound(plan, args, kwargs, keywordArguments), ([], []))
  {
    FI.DrainPhases(plan, args, kwargs, keywordArguments);
    BoundSelfContained(plan, args, kwargs, keywordArguments);
    RunCallStoresAll(plan, FI.Start(args, kwargs, keywordArguments), ([], []));
  }

  /**
   * The same call when every record converts: the callable receives the
   * converted values of the positional records, in order, as its positional
   * arguments, and each keyword record's converted value under its keyword.
   */
  lemma CallPassesBound(plan: FI.Plan, args: seq<Value>, kwargs: Dict<Value>, keywordArguments: map<string, Converter>)
    requires DistinctKeys(plan.slots) && DistinctKeys(plan.keywordOnly) && DistinctKeys(kwargs)
    requires PlanSelfContained(plan, keywordArguments)
    requires var b := FI.Bound(plan, args, kwargs, keywordArguments);
             forall i :: 0 <= i < |b| ==> ConvertRecord(b[i], []).0.Success?
    ensures var b, n := FI.Bound(plan, args, kwargs, keywordArguments), |plan.slots|;
            var positional := n + (if |args| > n then |args| - n else 0);
            var r := RunCall(plan, FI.Start(args, kwargs, keywordArguments), ([], [])).0;
            && r.Success?
            && r.value.0 == seq(positional, i requires 0 <= i < positional => ConvertRecord(b[i], []).0.value)
            && (forall i :: positional <= i < |b| ==> Get(r.value.1, b[i].keyword.value) == Some(ConvertRecord(b[i], []).0.value))
  {
    var b, n := FI.Bound(plan, args, kwargs, keywordArguments), |plan.slots|;
    var positional := n + (if |args| > n then |args| - n else 0);
    CallStoresBound(plan, args, kwargs, keywordArguments);
    FI.BoundShape(plan, args, kwargs, keywordArguments);
    FI.BoundKeywordsDistinct(plan, args, kwargs, keywordArguments);
    StoreAllStores(b, ([], []), positional);
    assert [] + seq(positional, i requires 0 <= i < positional => ConvertRecord(b[i], []).0.value)
           == seq(positional, i requires 0 <= i < positional => ConvertRecord(b[i], []).0.value);
  }

  /**
   * NewConvertHandler.py:24-57 on a callable with one parameter whose
   * converter is a Greedy (and no other converter): the parameter receives
   * the list of what the wrapped converter makes of the longest accepted
   * run of positional values; the value it stops at is popped too and
   * never reaches the callable; every value after it is passed on
   * unconverted, in order.  Called with no positional value, the slot takes
   * `kwargs.pop(name, None)` (FunctionIterator.py:63-65), so the Greedy
   * starts from None, which the wrapped converter may well accept.
   */
  lemma GreedySlotCall(name: string, inner: Converter, args: seq<Value>, k: nat)
    requires AcceptsFirst(inner, if args == [] then [NoneValue] else args, k)
    ensures var s := if args == [] then [NoneValue] else args;
            RunCall(FI.Plan([(name, Convertible.Greedy(inner, []))], Iterable.ConvertIterable([]), []),
                    FI.Start(args, [], map[]), ([], [])).0
            == Success(([List(ConvertedAll(inner, s[..k]))] + args[Positional.Min(k + 1, |args|)..], []))
  {
    var s := if args == [] then [NoneValue] else args;
    var plan := FI.Plan([(name, Convertible.Greedy(inner, []))], Iterable.ConvertIterable([]), []);
    var rest := args[Positional.Min(k + 1, |args|)..];
    var h := FI.Frame(FI.Slots, 1, Iterable.Pass([]), 0, 0, rest, [], map[]);
    var out := ([List(ConvertedAll(inner, s[..k]))], []);
    GreedySlotFirst(name, inner, args, k);
    GreedySlotRest(plan, h, rest);
    RunCallStoresAll(plan, h, out);
    PassThrough(FI.ExtraRecords(rest, []), rest, out);
  }

  /** The first record of `GreedySlotCall`: the slot's Greedy run, which pops what it consumed. */
  lemma GreedySlotFirst(name: string, inner: Converter, args: seq<Value>, k: nat)
    requires AcceptsFirst(inner, if args == [] then [NoneValue] else args, k)
    ensures var s := if args == [] then [NoneValue] else args;
            var plan := FI.Plan([(name, Convertible.Greedy(inner, []))], Iterable.ConvertIterable([]), []);
            RunCall(plan, FI.Start(args, [], map[]), ([], []))
            == RunCall(plan, FI.Frame(FI.Slots, 1, Iterable.Pass([]), 0, 0, args[Positional.Min(k + 1, |args|)..], [], map[]),
                       ([List(ConvertedAll(inner, s[..k]))], []))
  {
    var s := if args == [] then [NoneValue] else args;
    var deque := if args == [] then [] else args[1..];
    assert s == [s[0]] + deque;
    var c := Convertible.Greedy(inner, []);
    var plan := FI.Plan([(name, c)], Iterable.ConvertIterable([]), []);
    var f := FI.Start(args, [], map[]);
    var g := f.(slot := 1, args := deque);
    if args == [] {
      assert Without<Value>([], {name}) == [];
    }
    assert FI.Step(plan, f) == (Some(ConvertArgument(None, Some(c), s[0])), g);
    GreedyRun(inner, [], s[0], deque, k);
    assert deque[Positional.Min(k, |deque|)..] == args[Positional.Min(k + 1, |args|)..];
    var collected := List([] + ConvertedAll(inner, s[..k]));
    assert [] + ConvertedAll(inner, s[..k]) == ConvertedAll(inner, s[..k]);
    DriveConsumes(c, s[0], deque);
    RunCallSkipsPopped(plan, f, ([], []));
    assert [] + [collected] == [collected];
  }

  /**
   * FunctionIterator.py:63-65 with Greedy.py:73-81: a Greedy parameter called
   * with no argument at all receives what its wrapped converter makes of
   * None, when it accepts None, and not an empty list.
   */
  lemma GreedySlotConvertsNone(name: string, inner: Converter, r: Value)
    requires Apply(inner, NoneValue) == Ok(r)
    ensures RunCall(FI.Plan([(name, Convertible.Greedy(inner, []))], Iterable.ConvertIterable([]), []),
                    FI.Start([], [], map[]), ([], [])).0
            == Success(([List([r])], []))
  {
    assert AcceptsFirst(inner, [NoneValue], 1);
    GreedySlotCall(name, inner, [], 1);
    assert [NoneValue][..1] == [NoneValue] && [NoneValue][1..] == [];
    assert ConvertedAll(inner, [NoneValue]) == [r];
    assert [List([r])] + [] == [List([r])];
  }

  /** What the iterator of `GreedySlotCall` yields once its one slot is filled: the values left, without converters. */
  lemma GreedySlotRest(plan: FI.Plan, h: FI.Frame, rest: seq<Value>)
    requires |plan.slots| == 1 && plan.source.convertibles == [] && plan.keywordOnly == []
    requires h == FI.Frame(FI.Slots, 1, Iterable.Pass([]), 0, 0, rest, [], map[])
    ensures FI.Drain(plan, h).0 == FI.ExtraRecords(rest, [])
    ensures forall i :: 0 <= i < |FI.Drain(plan, h).0| ==> SelfContainedRecord(FI.Drain(plan, h).0[i])
  {
    var h2 := h.(phase := FI.Extras, extra := Iterable.Iter(plan.source));
    FI.SlotsEnd(plan, h, h2);
    FI.ExtrasPhase(plan, h2);
    var h3 := h2.(phase := FI.KeywordOnly, keywordOnlyAt := 0, args := [], extra := Iterable.Advance(h2.extra, |rest|));
    assert FI.Drain(plan, h3).0 == [];
    assert FI.ExtraRecords(rest, []) + [] == FI.ExtraRecords(rest, []);
  }

  /** Records without converters or keywords hand their raw values to the callable's positional list. */
  lemma PassThrough(records: seq<ConvertArgument>, rest: seq<Value>, out: Output)
    requires records == FI.ExtraRecords(rest, [])
    ensures StoreAll(records, out) == Success((out.0 + rest, out.1))
  {
    forall i | 0 <= i < |records|
      ensures records[i].keyword.None? && ConvertRecord(records[i], []).0 == Success(rest[i])
    {
    }
    StoreAllStores(records, out, |records|);
    assert seq(|records|, i requires 0 <= i < |records| => ConvertRecord(records[i], []).0.value) == rest;
  }

  /** The executor object: a function handler built once from the callable's signature and converters. */
  class ConvertHandler {
    const handler: FH.FunctionHandler

    /** NewConvertHandler.py:17-18. */
    constructor (sig: Signature, convertibles: ConvertibleCallable, setOrder: seq<string>)
      requires Enumerates(setOrder, convertibles.convertibleKeywordArguments.Keys * FH.KeywordOnlyNames(sig))
      ensures fresh(handler) && fresh(handler.keywordHandler)
      ensures handler.argumentHandler == Positional.FromFunction(sig.args, sig.varargs, convertibles)
      ensures handler.keywordHandler.keywordOnlyConvertibles
              == KeywordOnlyConvertibles(FH.KeywordOnlyNames(sig), convertibles.convertibleKeywordArguments, setOrder)
      ensures handler.keywordHandler.keywordArgumentsConvertible
              == KeywordArgumentsConvertible(sig.varkw, convertibles.convertibleKeywordArguments,
                                             KeySet(handler.keywordHandler.keywordOnlyConvertibles))
    {
      var h := FH.FromFunction(sig, convertibles, setOrder);
      handler := h;
    }

    /**
     * NewConvertHandler.py:23-31: exactly `RunCall` from a fresh iterator,
     * and the shared arbitrary-keyword dict is left as the iterator left it.
     */
    method Call(args: seq<Value>, kwargs: Dict<Value>) returns (r: Result<Output, Escape>)
      modifies handler.keywordHandler
      ensures r == RunCall(handler.Plan(), FI.Start(args, kwargs, old(handler.keywordHandler.keywordArgumentsConvertible)), ([], [])).0
      ensures handler.keywordHandler.keywordArgumentsConvertible
              == RunCall(handler.Plan(), FI.Start(args, kwargs, old(handler.keywordHandler.keywordArgumentsConvertible)), ([], [])).1.keywordArguments
    {
      var it := handler.Call(args, kwargs);
      var plan := handler.Plan();
      ghost var run := RunCall(plan, it.State(), ([], []));
      var outArgs: seq<Value>, outKwargs: Dict<Value> := [], [];
      while true
        invariant it.keywordHandler == handler.keywordHandler && it.ReadPlan() == plan
        invariant RunCall(plan, it.State(), (outArgs, outKwargs)) == run
        decreases FI.Rank(it.phase), FI.Left(plan, it.State())
      {
        var record := it.Next();
        if record.None? {
          return Success((outArgs, outKwargs));
        }
        var rec := record.value;
        var res := Convert(it, rec);
        if res.Failure? {
          return Failure(res.error);
        }
        // Lines 28-31 store the pair `convert` returned; the value is stored here.
        if rec.keyword.Some? {
          outKwargs := Put(outKwargs, rec.keyword.value, res.value);
        } else {
          outArgs := outArgs + [res.value];
        }
      }
    }

    /** NewConvertHandler.py:33-42, returning the converted value without the keyword beside it. */
    method Convert(it: FI.FunctionIterator, record: ConvertArgument) returns (r: Result<Value, Escape>)
      modifies it
      ensures (r, it.args) == ConvertRecord(record, old(it.args))
      ensures it.State() == old(it.State()).(args := it.args)
    {
      if record.convertible.None? {
        return Success(record.argument);
      }
      r := ConvertWith(it, record.convertible.value, record.argument);
    }

    /** NewConvertHandler.py:44-57: `_convert`, popping and pushing on the iterator's deque. */
    method ConvertWith(it: FI.FunctionIterator, c: Converter, argument: Value) returns (r: Result<Value, Escape>)
      modifies it
      ensures (r, it.args) == Drive(c, argument, old(it.args))
      ensures it.State() == old(it.State()).(args := it.args)
      decreases |it.args| + (if argument.NoMoreArguments? then 0 else 1)
    {
      match Apply(c, argument)
      case Ok(v) =>
        r := Success(v);
      case Fail(e) =>
        r := Failure(Raised(e));
      case Stop =>
        r := Failure(StopIteration);
      case NeedMore(next) =>
        NoNeedMoreOnSentinel(c);
        var nextArgument := NoMoreArguments;
        if it.args != [] {
          nextArgument := it.args[0];
          it.args := it.args[1..];
        }
        r := ConvertWith(it, next, nextArgument);
      case Reject(result, surplus) =>
        PushBack(it, surplus);
        r := Success(result);
    }

    /** NewConvertHandler.py:53-55: `appendleft` of each surplus value in turn. */
    method PushBack(it: FI.FunctionIterator, surplus: seq<Value>)
      modifies it
      ensures it.args == Reversed(surplus) + old(it.args)
      ensures it.State() == old(it.State()).(args := it.args)
    {
      var i := 0;
      while i < |surplus|
        invariant 0 <= i <= |surplus|
        invariant it.args == Reversed(surplus[..i]) + old(it.args)
        invariant it.State() == old(it.State()).(args := it.args)
      {
        ReversedSnoc(surplus[..i], surplus[i]);
        assert surplus[..i + 1] == surplus[..i] + [surplus[i]];
        it.args := [surplus[i]] + it.args;
        i := i + 1;
      }
      assert surplus[..i] == surplus;
    }
  }

  /**
   * tests/test_greedy.py:51-56, whose expectation is stated here for this
   * executor: a callable whose one parameter has a Greedy converter, called
   * with 1 and 2, receives the list of both converted values.  The iterator
   * by itself would yield two records; the executor converts only the
   * first, because its Greedy pops the second value off the deque the
   * iterator would have read it from.
   */
  lemma GreedySlotScenario(run: Value -> LeafResult, a: Value, b: Value)
    requires run(Int(1)) == Converted(a) && run(Int(2)) == Converted(b)
    ensures RunCall(FI.Plan([("args", Convertible.Greedy(Leaf(run), []))], Iterable.ConvertIterable([]), []),
                    FI.Start([Int(1), Int(2)], [], map[]), ([], [])).0
            == Success(([List([a, b])], []))
    ensures |FI.Drain(FI.Plan([("args", Convertible.Greedy(Leaf(run), []))], Iterable.ConvertIterable([]), []),
                      FI.Start([Int(1), Int(2)], [], map[])).0| == 2
  {
    var args := [Int(1), Int(2)];
    assert AcceptsFirst(Leaf(run), args, 2);
    GreedySlotCall("args", Leaf(run), args, 2);
    assert args[..2] == args && args[1..] == [Int(2)] && [Int(2)][1..] == [];
    assert ConvertedAll(Leaf(run), [Int(2)]) == [b];
    assert ConvertedAll(Leaf(run), args) == [a, b];
    assert args[Positional.Min(3, 2)..] == [];
    assert [List([a, b])] + [] == [List([a, b])];
    FI.CallRecords(FI.Plan([("args", Convertible.Greedy(Leaf(run), []))], Iterable.ConvertIterable([]), []), args, [], map[]);
  }
}

=== FILE: optional.dfy ===
/** Optional.py: convert with the wrapped converter, or fall back to None. */
module OptionalConvertible {
  import opened Values
  import opened Convertible

  /**
   * Optional.py:40-45: a success of the wrapped converter is returned as it
   * is; a ConvertException or a StopIteration becomes None; the
   * request-more and reject signals pass through unwrapped.
   */
  lemma OptionalOutcome(inner: Converter, argument: Value)
    ensures Apply(inner, argument).Ok? ==> Apply(Optional(inner), argument) == Apply(inner, argument)
    ensures Apply(inner, argument).Fail? ==> Apply(Optional(inner), argument) == Ok(NoneValue)
    ensures Apply(inner, argument).Stop? ==> Apply(Optional(inner), argument) == Ok(NoneValue)
    ensures Apply(inner, argument).NeedMore? || Apply(inner, argument).Reject? ==>
              Apply(Optional(inner), argument) == Apply(inner, argument)
  {
  }

  /** Whatever the wrapped converter does, Optional never lets a failure out. */
  lemma OptionalNeverFails(inner: Converter, argument: Value)
    ensures !Apply(Optional(inner), argument).Fail?
    ensures !Apply(Optional(inner), argument).Stop?
  {
  }
}

=== FILE: values.dfy ===
/**
 * The Python values that flow through the conversion pipeline, and Python
 * dicts with string keys.  A dict remembers insertion order, which the
 * call-time sequencer relies on (keyword arguments are visited in the order
 * the caller wrote them), so it is modelled as an association list.
 */
module Values {
  import opened Wrappers

  datatype Value =
    | NoneValue            // Python None
    | NoMoreArguments      // the executor's sentinel (NewConvertHandler.py:12)
    | Int(i: int)
    | Str(s: string)
    | List(items: seq<Value>)
    | Tuple(items: seq<Value>)

  /** A Python dict `{str: V}`, in insertion order. */
  type Dict<V> = seq<(string, V)>

  /** `d.keys()`. */
  function KeySet<V>(d: Dict<V>): set<string> {
    if d == [] then {} else {d[0].0} + KeySet(d[1..])
  }

  /** A name is a key exactly when some entry carries it. */
  lemma {:induction false} KeySetMembers<V>(d: Dict<V>)
    ensures forall i :: 0 <= i < |d| ==> d[i].0 in KeySet(d)
    ensures forall k :: k in KeySet(d) ==> exists i :: 0 <= i < |d| && d[i].0 == k
  {
    if d != [] {
      var tail := d[1..];
      KeySetMembers(tail);
      forall i | 0 < i < |d|
        ensures d[i].0 in KeySet(d)
      {
        assert d[i] == tail[i - 1];
      }
      forall k | k in KeySet(d)
        ensures exists i :: 0 <= i < |d| && d[i].0 == k
      {
        if k != d[0].0 {
          var j :| 0 <= j < |tail| && tail[j].0 == k;
          assert d[j + 1].0 == k;
        }
      }
    }
  }

  predicate DistinctKeys<V>(d: Dict<V>) {
    forall i, j :: 0 <= i < j < |d| ==> d[i].0 != d[j].0
  }

  /** `d.get(k)`: the value of the entry for `k`, if any. */
  function Get<V>(d: Dict<V>, k: string): (r: Option<V>)
    ensures r.None? <==> k !in KeySet(d)
  {
    if d == [] then None
    else if d[0].0 == k then Some(d[0].1)
    else Get(d[1..], k)
  }

  /** `d.get(k, default)`. */
  function GetOr<V>(d: Dict<V>, k: string, default: V): V {
    match Get(d, k)
    case Some(v) => v
    case None => default
  }

  /** The dict left after deleting every key in `ks`, other entries keeping their order. */
  function Without<V>(d: Dict<V>, ks: set<string>): (r: Dict<V>)
    ensures |r| <= |d|
    ensures KeySet(r) == KeySet(d) - ks
  {
    if d == [] then []
    else if d[0].0 in ks then Without(d[1..], ks)
    else [d[0]] + Without(d[1..], ks)
  }

  /** `d.pop(k, default)`: the value under `k` (or `default`) and the dict without `k`. */
  function Pop<V>(d: Dict<V>, k: string, default: V): (V, Dict<V>) {
    (GetOr(d, k, default), Without(d, {k}))
  }

  /** `d.update({k: v})`: an existing key keeps its position, a new key goes last. */
  function Put<V>(d: Dict<V>, k: string, v: V): (r: Dict<V>)
    ensures Get(r, k) == Some(v)
    ensures forall k' :: k' != k ==> Get(r, k') == Get(d, k')
    ensures KeySet(r) == KeySet(d) + {k}
  {
    if d == [] then [(k, v)]
    else if d[0].0 == k then [(k, v)] + d[1..]
    else [d[0]] + Put(d[1..], k, v)
  }

  /** `m.pop(k, None)` / `m.get(k)` on a dict whose order does not matter. */
  function MapGet<K, V>(m: map<K, V>, k: K): (r: Option<V>)
    ensures r.Some? <==> k in m
    ensures r.Some? ==> r.value == m[k]
  {
    if k in m then Some(m[k]) else None
  }

  /** With distinct keys, looking up the key of entry `i` finds that entry's value. */
  lemma {:induction false} GetAt<V>(d: Dict<V>, i: nat)
    requires DistinctKeys(d) && i < |d|
    ensures Get(d, d[i].0) == Some(d[i].1)
  {
    if i > 0 {
      assert d[0].0 != d[i].0;
      assert d[1..][i - 1] == d[i];
      GetAt(d[1..], i - 1);
    }
  }

  /** Deleting keys leaves the lookup of every other key as it was. */
  lemma {:induction false} WithoutGet<V>(d: Dict<V>, ks: set<string>, k: string)
    requires k !in ks
    ensures Get(Without(d, ks), k) == Get(d, k)
  {
    if d != [] {
      WithoutGet(d[1..], ks, k);
      if d[0].0 !in ks {
        assert ([d[0]] + Without(d[1..], ks))[1..] == Without(d[1..], ks);
      }
    }
  }

  /** Deleting keys keeps the keys distinct. */
  lemma {:induction false} WithoutDistinct<V>(d: Dict<V>, ks: set<string>)
    requires DistinctKeys(d)
    ensures DistinctKeys(Without(d, ks))
  {
    if d != [] {
      var tail := d[1..];
      assert DistinctKeys(tail) by {
        forall i, j | 0 <= i < j < |tail|
          ensures tail[i].0 != tail[j].0
        {
          assert tail[i] == d[i + 1] && tail[j] == d[j + 1];
        }
      }
      WithoutDistinct(tail, ks);
      if d[0].0 !in ks {
        assert d[0].0 !in KeySet(tail) by {
          KeySetMembers(tail);
          forall i | 0 <= i < |tail|
            ensures tail[i].0 != d[0].0
          {
            assert tail[i] == d[i + 1];
          }
        }
        var rest := Without(tail, ks);
        var r := [d[0]] + rest;
        KeySetMembers(rest);
        forall i, j | 0 <= i < j < |r|
          ensures r[i].0 != r[j].0
        {
          assert r[j] == rest[j - 1];
          if i > 0 {
            assert r[i] == rest[i - 1];
          }
        }
        assert Without(d, ks) == r;
      }
    }
  }

  lemma {:induction false} WithoutWithout<V>(d: Dict<V>, a: set<string>, b: set<string>)
    ensures Without(Without(d, a), b) == Without(d, a + b)
  {
    if d != [] {
      WithoutWithout(d[1..], a, b);
      if d[0].0 !in a {
        assert ([d[0]] + Without(d[1..], a))[1..] == Without(d[1..], a);
      }
    }
  }

  lemma {:induction false} WithoutNothing<V>(d: Dict<V>, ks: set<string>)
    requires ks !! KeySet(d)
    ensures Without(d, ks) == d
  {
    if d != [] {
      assert d[0].0 !in ks;
      WithoutNothing(d[1..], ks);
      assert Without(d, ks) == [d[0]] + d[1..];
    }
  }

  /** Popping a key that an earlier deletion spared finds its original value and deletes it too. */
  lemma PopWithout<V>(d: Dict<V>, ks: set<string>, k: string, default: V)
    requires k !in ks
    ensures Pop(Without(d, ks), k, default) == (GetOr(d, k, default), Without(d, ks + {k}))
  {
    WithoutWithout(d, ks, {k});
    WithoutGet(d, ks, k);
  }

  /** The keys of a prefix grow by one key per entry. */
  lemma KeySetExtend<V>(d: Dict<V>, i: nat)
    requires i < |d|
    ensures KeySet(d[..i + 1]) == KeySet(d[..i]) + {d[i].0}
  {
    var longer, shorter := d[..i + 1], d[..i];
    KeySetMembers(longer);
    KeySetMembers(shorter);
    forall k | k in KeySet(longer)
      ensures k in KeySet(shorter) + {d[i].0}
    {
      var j :| 0 <= j < |longer| && longer[j].0 == k;
      if j < i {
        assert shorter[j] == longer[j];
      }
    }
    forall k | k in KeySet(shorter)
      ensures k in KeySet(longer)
    {
      var j :| 0 <= j < |shorter| && shorter[j].0 == k;
      assert longer[j] == shorter[j];
    }
    assert longer[i] == d[i];
  }

  /** With distinct keys, the key of entry `i` is not among the keys before it. */
  lemma DistinctPrefix<V>(d: Dict<V>, i: nat)
    requires DistinctKeys(d) && i < |d|
    ensures d[i].0 !in KeySet(d[..i])
  {
    var prefix := d[..i];
    KeySetMembers(prefix);
    forall j | 0 <= j < |prefix|
      ensures prefix[j].0 != d[i].0
    {
      assert prefix[j] == d[j];
    }
  }

  /** The sequence in reverse order. */
  function Reversed<T>(s: seq<T>): (r: seq<T>)
    ensures |r| == |s|
    ensures forall i :: 0 <= i < |s| ==> r[i] == s[|s| - 1 - i]
  {
    if s == [] then [] else Reversed(s[1..]) + [s[0]]
  }

  /** Pushing `x` on the front of a reversed sequence reverses the sequence extended by `x`. */
  lemma ReversedSnoc<T>(s: seq<T>, x: T)
    ensures Reversed(s + [x]) == [x] + Reversed(s)
  {
    var r, t := Reversed(s + [x]), [x] + Reversed(s);
    forall k | 0 <= k < |r|
      ensures r[k] == t[k]
    {
      if k > 0 {
        assert (s + [x])[|s| - k] == s[|s| - 1 - (k - 1)];
      }
    }
  }
}

=== FILE: wrappers.dfy ===
/** Option and Result, used for Python's `None`-or-value and raise-or-return. */
module Wrappers {

  datatype Option<+T> = None | Some(value: T)

  datatype Result<+T, +E> = Success(value: T) | Failure(error: E)
}
